=== FILE: README.md ===
# pktcore packet formats, discovery and ordering — a Dafny model

pktcore splits a file into "packet" files and finds them again by a file
identifier. This project models the pure logic of that code:

- the three header drafts, each as its own module:
  - `LegacyHeader`: the 50-byte `Full_Header` of `include/header.h`.
  - `FullHeaderDraft`: the 50-byte `Full_Header` of `include/full_header.h`, with a 7-byte identifier and a 22-byte name.
  - `MiniHeaderDraft`: the 15-byte `Mini_Header`. `include/header.h` and `include/mini_header.h` share the same layout, constructor, factory, writer and decoding code (they differ only in a defaulted constructor and the printed labels), so it is modelled once.

  Each module has the struct as a record of fixed-width byte arrays, its constructor and factory, the image `Write_*` puts in a file, and the decoder taken out of `Read_And_Print_*` (the printing is dropped).
- packet discovery and ordering in `include/combiner.h` (`Combiner`). This covers:
  - recognising `PCORE` files and reading the identifier, part number and stored name;
  - the identifier → name map and the list of names (`Discover`, `Detect`);
  - the min-heap of parts (`BuildMinHeap`, `Drain`).

  The map is modelled by `NameTable`, a sorted association list. Its keys are ordered the way `std::map<std::string, …>` orders them (`LexOrder`).
- the byte utilities of `include/pkt_utils.h` (`PktUtils`): `Fetch_Bytes`, `Append_Bytes`, `Genrate_File_ID` and `CREATE_EMPTY_HEADER_FILE`, which names an empty header file and creates it.
- the cursor of the list picker `SHOW_SELECT_FILES` in `include/explorer.h` (`Explorer`).

Shared conventions live in `Bytes`:
- integers are copied with `memcpy` in host order, and this model fixes that order as little-endian (`LE`, `FromLE`);
- a name is stored zero-padded or cut to its field width (`FixedField`);
- a name is read back up to its first NUL (`UpToNul`).

Files are byte sequences. A directory is a `map` from name to contents (`Disk`) or, for the combiner, the sequence of its regular files in listing order. Some things depend on the environment and are inputs to the model:
- whether a file can be opened or created;
- the `rand()` results;
- the keys the user presses.

Behaviour of the code worth knowing:
- The `include/header.h` full header carries neither the `PCORE` tag nor an identifier.
- Long names are cut silently, not rejected.
- Duplicate part numbers stay in the heap, and nothing is reported.
- `bytes_to_int` is big-endian, while the decoders are host-order.
- The size comment `= 54 bytes` in both full-header decoders is wrong. The sums are 50 in `include/header.h` and 48 in `include/full_header.h`, and the model uses the sums.

## Model

| member | source | states |
|---|---|---|
| `Bytes.FromLEOfLE` | include/header.h:29-35 | reading back a `memcpy`'d integer recovers it exactly |
| `Bytes.LEOfFromLE` | include/header.h:148-169 | every byte string of a given width is the image of the integer it decodes to |
| `Bytes.FixedField` | include/header.h:37-38 | a name field holds `name[i]` below the name's length and 0 beyond it, always exactly the field width |
| `Bytes.UpToNul` | include/header.h:171-176 | the name read back is the longest NUL-free prefix of the field: a prefix, without NUL, ending at a NUL or at the end |
| `Bytes.NameRoundTrip` | include/header.h:171-176 | reading the first k bytes of a padded field gives the name back if and only if the name fits in k bytes and has no NUL |
| `Bytes.ReadBackName` | include/full_header.h:116-121 | what is read back is the name cut to k bytes, then at its first NUL |
| `Bytes.BytesToInt` | include/header.h:110-124 | `bytes_to_int` and `bytes_to_long` (identical code) compute the big-endian value modulo 2^64, which for up to 8 bytes is the exact value Σ arr[i]·256^(N−1−i) |
| `LegacyHeader.Construct` | include/header.h:26-39 | every member has its width; integers are stored so that they read back exactly; the name is padded or cut to 16 bytes |
| `LegacyHeader.Factory` | include/header.h:64-71 | part and total are stored modulo 2^16, payload and packet sizes modulo 2^32, version and flag modulo 2^8; the name is copied, zero-padded or cut to 16 bytes |
| `LegacyHeader.FactoryNarrowsPart` | include/header.h:64-70 | a part number of 65536 is stored as 0 and a total of 65537 as 1 |
| `LegacyHeader.Image` | include/header.h:14-22 | the struct occupies exactly 50 bytes (1+4+4+1+8+8+8+16) |
| `LegacyHeader.Write` | include/header.h:83-92 | after writing, the file holds exactly the 50-byte image, which decodes to the struct's values; a failed open changes nothing; other files are untouched |
| `LegacyHeader.Decode` | include/header.h:126-176 | fails exactly when fewer than 50 bytes are available; the decoded name has no NUL and at most 16 bytes |
| `LegacyHeader.DecodeReadsPrefix` | include/header.h:134-141 | only the first 50 bytes are read |
| `LegacyHeader.RoundTrip` | include/header.h:143-176 | decoding a constructed header recovers version, part, total, flag, payload, packet and file size exactly, and the name cut to 16 bytes and at its first NUL |
| `LegacyHeader.NameRoundTripIff` | include/header.h:171-176 | the name survives the round trip if and only if it has at most 16 bytes and no NUL |
| `MiniHeaderDraft.Construct` | include/mini_header.h:25-30 | the identifier is copied verbatim; part and size are stored so that they read back exactly |
| `MiniHeaderDraft.Factory` | include/mini_header.h:39-42 | the factory passes identifier, part and size through unchanged: decoding gives all three back |
| `MiniHeaderDraft.Image` | include/mini_header.h:15-18 | the struct occupies exactly 15 bytes |
| `MiniHeaderDraft.Write` | include/mini_header.h:46-55 | after writing, the file holds exactly the 15-byte image, which decodes to the struct's values; a failed open changes nothing; other files are untouched |
| `MiniHeaderDraft.Decode` | include/mini_header.h:78-106 | fails exactly when fewer than 15 bytes are available; the identifier is the first 7 bytes verbatim, NULs included |
| `MiniHeaderDraft.DecodeReadsPrefix` | include/header.h:197-204 | only the first 15 bytes are read (the decoder of the first draft is the same code) |
| `MiniHeaderDraft.RoundTrip` | include/mini_header.h:95-106 | decoding an encoded header returns the same identifier, part and size |
| `MiniHeaderDraft.DecodeThenEncode` | include/header.h:206-217 | conversely, any 15 bytes are the encoding of the header built from what they decode to |
| `FullHeaderDraft.Construct` | include/full_header.h:29-42 | identifier verbatim; part, total, payload and file size stored so that they read back exactly; the name padded or cut to 22 bytes |
| `FullHeaderDraft.Factory` | include/full_header.h:52-58 | identifier, part, total, flag, payload and file size pass through unchanged (a non-zero part number included) and decode back exactly; the name is copied, zero-padded or cut to 22 bytes |
| `FullHeaderDraft.Image` | include/full_header.h:15-22 | the struct occupies exactly 50 bytes (7+4+4+1+4+8+22) |
| `FullHeaderDraft.Write` | include/full_header.h:62-71 | after writing, the file holds exactly the 50-byte image, which decodes to the struct's values; a failed open changes nothing; other files are untouched |
| `FullHeaderDraft.Decode` | include/full_header.h:75-121 | fails exactly when fewer than 48 bytes are available; the identifier is the first 7 bytes; the name has no NUL and at most 16 bytes |
| `FullHeaderDraft.ReadsFewerThanWritten` | include/full_header.h:83-90 | the first 48 bytes of an image decode like the whole image, and 47 bytes do not decode |
| `FullHeaderDraft.RoundTrip` | include/full_header.h:92-121 | decoding recovers identifier, part, total, flag, payload and file size exactly, and the name cut to 16 bytes and at its first NUL |
| `FullHeaderDraft.NameRoundTripIff` | include/full_header.h:116-121 | the name survives the round trip if and only if it has at most 16 bytes and no NUL |
| `FullHeaderDraft.LongNameLost` | include/full_header.h:116-121 | a NUL-free name of 17 to 22 bytes is stored intact in the image but decodes to its first 16 bytes |
| `FullHeaderDraft.DecodeWholeName` | include/full_header.h:40-41 | reading the whole 22-byte field: fails below 50 bytes; the name is the C string of bytes 28..49, that is a prefix of the field that ends at its first NUL or at its 22nd byte; agrees with `Decode` on every other field, and `Decode`'s name is this name cut to 16 bytes |
| `FullHeaderDraft.WholeNameRoundTripIff` | include/full_header.h:40-41 | with the whole field read, a name survives if and only if it has at most 22 bytes and no NUL |
| `LexOrder.Transitive` | include/combiner.h:32 | the map's key order is transitive |
| `LexOrder.Total` | include/combiner.h:32 | any two distinct keys are ordered one way or the other |
| `NameTable.Insert` | include/combiner.h:60 | `m[k] = v` maps k to v, leaves every other key as it was, keeps keys in order, and adds at most one entry |
| `NameTable.GetAt` | include/combiner.h:68-72 | in an ordered map each stored key is found with its own value |
| `NameTable.FirstKeyWithValue` | include/combiner.h:68-75 | returns the key of the first entry whose value matches, or the empty string when none does |
| `NameTable.FirstKeyIsLeast` | include/combiner.h:68-72 | the key found maps to the name, and every other key mapping to it is larger |
| `Combiner.IsPcoreIff` | include/combiner.h:38-43 | a file counts as a packet if and only if it has at least 5 bytes and they are `PCORE` |
| `Combiner.FileId` | include/combiner.h:45-47 | the identifier is bytes 5..9 up to the first NUL: at most 5 bytes, no NUL |
| `Combiner.GeneratedIdReadBack` | include/combiner.h:95-99 | an identifier from `Genrate_File_ID` stored at bytes 5..9 is read back whole, so it matches itself as a target |
| `Combiner.PartNumber` | include/combiner.h:49-50 | the part number is bytes 10..13 in host order, known exactly when the file has 14 bytes |
| `Combiner.StoredName` | include/combiner.h:52-56 | the name of a part-0 packet is what a read of up to 19 bytes from offset 31 gets, cut at the first NUL: bytes 31..49 for a file of 50 bytes or more, the bytes from 31 to the end for a shorter one, and empty when the file ends at or before offset 31 |
| `Combiner.Discover` | include/combiner.h:35-62 | the identifier map built by the scan keeps its keys in map order and has no more entries than the name list |
| `Combiner.DiscoverKeys` | include/combiner.h:52-61 | an identifier is in the map if and only if some part-0 packet carries it |
| `Combiner.DiscoverLookup` | include/combiner.h:52-61 | for every identifier, the map built by the scan holds what the last part-0 packet carrying it stored, and nothing when no packet carries it |
| `Combiner.DiscoverLastWins` | include/combiner.h:59-60 | the name stored under an identifier is that of the last part-0 packet carrying it |
| `Combiner.DiscoverNames` | include/combiner.h:59 | the name list holds every part-0 packet's name in listing order, duplicates included |
| `Combiner.Detect` | include/combiner.h:31-76 | with no part-0 packets the result is the empty string; a non-empty result is the identifier of some part-0 packet |
| `Combiner.DetectChoosesLeastId` | include/combiner.h:64-75 | the result is the least identifier in key order mapping to the picked name, or the empty string when none does |
| `Combiner.HeapNode` | include/combiner.h:85-107 | a file yields a node exactly when it opens, is a packet, has the target identifier, has a readable part number, and that part is not 0; the node carries that part number and the file's name |
| `Combiner.BuildMinHeap` | include/combiner.h:78-111 | the heap is the multiset of nodes of the matching files: no part 0, one node per file, duplicates kept |
| `Combiner.TopExists` | include/combiner.h:20-24 | a non-empty queue always has a top node that no other node outranks under `CompareSplitNo` |
| `Combiner.Drain` | include/combiner.h:113-122 | popping until empty emits every node exactly once, with part numbers never decreasing |
| `Combiner.PartsInOrder` | include/combiner.h:78-122 | building and draining the heap lists each matching file's part exactly once, in ascending part order, and nothing else |
| `PktUtils.ClampEnd` | include/pkt_utils.h:74-77 | an end of −1 or past the file size becomes the file size; any other end is kept |
| `PktUtils.FetchBytes` | include/pkt_utils.h:65-102 | empty when the file cannot be opened, when the clamped end is not past the start, or when the start is negative; otherwise exactly `data[start..end)`, of length end − start |
| `PktUtils.FetchWhole` | include/pkt_utils.h:65-67 | with the default arguments the whole contents are returned |
| `PktUtils.FetchAdjacent` | include/pkt_utils.h:84-101 | reading [a,b) then [b,c) gives the bytes of [a,c) |
| `PktUtils.AppendBytes` | include/pkt_utils.h:109-120 | the file becomes the old contents followed by the bytes, with the old prefix unchanged; a missing file is created; a failed open changes nothing; other files are untouched |
| `PktUtils.FetchAfterAppend` | include/pkt_utils.h:109-120 | fetching from the old end after an append returns exactly the appended bytes |
| `PktUtils.CharsetIsAlnum` | include/pkt_utils.h:134-135 | the 62-character alphabet is exactly the ASCII digits and letters |
| `PktUtils.GenerateFileId` | include/pkt_utils.h:127-144 | the identifier is 5 bytes, each an ASCII letter or digit, never NUL |
| `PktUtils.EveryIdReachable` | include/pkt_utils.h:138-141 | every 5-character alphanumeric identifier is produced by some sequence of draws |
| `PktUtils.HexRoundTrip` | include/pkt_utils.h:155-161 | the `%02X` spelling of the identifier decodes back to it |
| `PktUtils.DecimalRoundTrip` | include/pkt_utils.h:163 | `std::to_string` of an `int` parses back to the number |
| `PktUtils.HeaderFileName` | include/pkt_utils.h:155-163 | the name is 10 upper-case hex digits that decode to the identifier, then `_`, then the number spelled as `std::to_string` does: a `-` exactly for negatives, then digits with no leading zero, which parse back to the number |
| `PktUtils.CreateEmptyHeaderFile` | include/pkt_utils.h:153-171 | the file of that name exists and is empty afterwards, whether it was new or truncated, and the name is returned; when it cannot be created the result is the empty string and nothing changes; no other file is touched |
| `Explorer.Transition` | include/explorer.h:62-71 | the cursor stays on the list; up never moves it down and goes up one line when it can; down is the mirror image; only Enter chooses, and it does not move the cursor; other keys change nothing |
| `Explorer.Run` | include/explorer.h:56-74 | anything chosen is one of the items |
| `Explorer.Select` | include/explorer.h:33-41 | an empty list gives the empty string whatever the keys; otherwise the cursor starts on the first item, so an immediate Enter picks it |
| `Explorer.DownsThenEnter` | include/explorer.h:65-67 | n downs then Enter pick the item n lines lower, or the last one |
| `Explorer.UpsThenEnter` | include/explorer.h:62-64 | n ups then Enter pick the item n lines higher, or the first one |
| `Explorer.OtherKeysIgnored` | include/explorer.h:56-74 | keys that are neither up, down nor Enter have no effect |
| `Explorer.NoEnterNoChoice` | include/explorer.h:56-74 | without Enter nothing is chosen: the loop keeps waiting |

## Left out

- Splitting and reassembly. The plan of part sizes and the concatenation of payloads are not in the code: `split` in `include/splitter.h` is a stub, and `splitter::SPLITTER`, `combiner::COMBINE` and `SHOW_PCORE_FILES`, called from `src/main.cpp`, are defined in none of the project headers `src/main.cpp` reaches: `include/combiner.h` and `include/splitter.h` directly, `include/explorer.h` and `include/pkt_utils.h` through the former.
- Context files: the text-line and stream helpers in `include/splitter.h`; the directory listing of `include/search.h`, whose 15-byte decoder repeats `Read_And_Print_Mini_Header`; the command-line dispatcher `src/main.cpp`; and the Electron front end under `gui/`.
- `include/test.cpp` and `include/test3.cpp`: they call functions no header defines.
- The commented-out code at the end of `include/pkt_utils.h`; `FETCH_FILES` and `Get_File_Size`, which query the file system; `CREATE_EMPTY_FILE`, which only creates a file.
- `srand(time(0))`: the `rand()` results are an input instead.
- Terminal handling in `include/explorer.h`: `GetChar`, `system("clear")`, rendering, and the Windows 224 prefix.
- Printing in every `Read_And_Print_*` and in `PrintMinHeap`, and every diagnostic message: the skipped-file notice of `include/combiner.h:41`, the error messages of `include/pkt_utils.h:70`, `:80`, `:90`, `:96`, `:114` and `:167`, those of `include/header.h:87` and `:100`, of `include/full_header.h:66` and of `include/mini_header.h:50`, and the "No items to select." notice of `include/explorer.h:37`. Only the decoded values, the order of nodes and the file contents are modelled.
- Relations between the drafts: the drafts declare clashing types under one name and are not related to each other.
- `FullHeaderDraft.Decode`: in the source, the payload is 4 bytes copied into an uninitialised 64-bit variable, so its upper 4 bytes are indeterminate. The model reads the stored 32-bit value.
- `Combiner.PartNumber`: a packet with fewer than 14 bytes leaves `split_no` uninitialised, which is undefined behaviour. The model treats such a file as skipped: it adds no name and no heap node.
- `Combiner.StoredName`: the model assumes that seeking to offset 31 past the end of a file succeeds and that the read which follows yields nothing, so the name is empty.
- `Combiner.Detect`: the picker's keys are an input. When they run out without an Enter, the result is `None`, where the source would block waiting for input.
- `Explorer.Run`: a run that never sees Enter returns `None` instead of waiting forever.
- Host byte order: memory images are modelled little-endian only.

## Findings

| source | as written | input that shows it | evidently intended | confidence | as-written member | corrected member |
|---|---|---|---|---|---|---|
| include/full_header.h:83-121 | the decoder reads 48 bytes and only the first 16 bytes of the 22-byte name field | a header built with the 17-byte name `ABCDEFGHIJKLMNOPQ` decodes with the name `ABCDEFGHIJKLMNOP` | read all 50 bytes and the whole 22-byte field, so that names of up to 22 bytes survive | low; not executed | `FullHeaderDraft.LongNameLost` | `FullHeaderDraft.WholeNameRoundTripIff` |

=== FILE: bytes.dfy ===
/**
 Fixed-width unsigned integers and the byte-level conventions shared by every
 header draft: little-endian images of integers (what `memcpy` of an integer
 produces on a little-endian host), C strings cut at the first NUL, and
 fixed-width zero-padded name fields.
 */
module Bytes {

  type uint8 = x: int | 0 <= x < 0x100
  type uint16 = x: int | 0 <= x < 0x1_0000
  type uint32 = x: int | 0 <= x < 0x1_0000_0000
  type uint64 = x: int | 0 <= x < Two64

  /** 2^56 and 2^64: the bound below which a shift left by one byte stays in 64 bits, and the 64-bit bound. */
  const Two56: int := 0x100_0000_0000_0000
  const Two64: int := 0x1_0000_0000_0000_0000

  type bytes = seq<uint8>

  /** 256 to the power n. */
  function Pow256(n: nat): (r: nat)
    ensures r > 0
  {
    if n == 0 then 1 else 256 * Pow256(n - 1)
  }

  lemma WidthBounds()
    ensures Pow256(1) == 0x100
    ensures Pow256(2) == 0x1_0000
    ensures Pow256(4) == 0x1_0000_0000
    ensures Pow256(7) == Two56
    ensures Pow256(8) == Two64
  {
  }

  /** The `width`-byte little-endian image of `v`. */
  function LE(v: nat, width: nat): (r: bytes)
    requires v < Pow256(width)
    ensures |r| == width
  {
    if width == 0 then []
    else
      assert v / 256 < Pow256(width - 1);
      [v % 256] + LE(v / 256, width - 1)
  }

  /** The unsigned integer whose little-endian image is `s`. */
  function FromLE(s: bytes): (v: nat)
    ensures v < Pow256(|s|)
  {
    if |s| == 0 then 0
    else
      var rest := FromLE(s[1..]);
      assert s[0] + 256 * rest <= 255 + 256 * (Pow256(|s| - 1) - 1);
      s[0] + 256 * rest
  }

  /** Reading back a little-endian image recovers the integer. */
  lemma {:induction false} FromLEOfLE(v: nat, width: nat)
    requires v < Pow256(width)
    ensures FromLE(LE(v, width)) == v
  {
    if width > 0 {
      FromLEOfLE(v / 256, width - 1);
      assert LE(v, width)[1..] == LE(v / 256, width - 1);
    }
  }

  /** Every byte string of a given width is the image of exactly one integer. */
  lemma {:induction false} LEOfFromLE(s: bytes)
    ensures LE(FromLE(s), |s|) == s
  {
    if |s| > 0 {
      LEOfFromLE(s[1..]);
      var v := FromLE(s);
      assert v % 256 == s[0] && v / 256 == FromLE(s[1..]);
      assert LE(v, |s|) == [s[0]] + s[1..];
    }
  }

  /** `n` zero bytes. */
  function Zeros(n: nat): (r: bytes)
    ensures |r| == n
    ensures forall i :: 0 <= i < n ==> r[i] == 0
  {
    seq(n, _ => 0)
  }

  /**
   A fixed-width name field: the name copied byte for byte, cut to `width`
   bytes when longer and padded with zero bytes when shorter.
   */
  function FixedField(name: bytes, width: nat): (r: bytes)
    ensures |r| == width
    ensures forall i :: 0 <= i < width ==> r[i] == (if i < |name| then name[i] else 0)
  {
    if |name| >= width then name[..width] else name + Zeros(width - |name|)
  }

  /** The C string stored in `s`: every byte before the first NUL. */
  function UpToNul(s: bytes): (r: bytes)
    ensures |r| <= |s| && r == s[..|r|]
    ensures 0 !in r
    ensures |r| == |s| || s[|r|] == 0
  {
    if |s| == 0 || s[0] == 0 then [] else [s[0]] + UpToNul(s[1..])
  }

  /** `UpToNul` is determined by the characterisation in its contract. */
  lemma {:induction false} UpToNulUnique(s: bytes, r: bytes)
    requires |r| <= |s| && r == s[..|r|]
    requires 0 !in r
    requires |r| == |s| || s[|r|] == 0
    ensures UpToNul(s) == r
  {
  }

  /** A C string read from the first `k` bytes is the full C string cut to `k` bytes. */
  lemma CutBeforeNul(s: bytes, k: nat)
    requires k <= |s|
    ensures UpToNul(s[..k]) == Truncate(UpToNul(s), k)
  {
    var u := UpToNul(s);
    var t := Truncate(u, k);
    if |u| >= k {
      assert t == s[..k];
      UpToNulUnique(s[..k], t);
    } else {
      assert s[..k][|u|] == s[|u|] == 0;
      UpToNulUnique(s[..k], u);
    }
  }

  /**
   Reading the first `k` bytes of a `width`-byte name field as a C string gives
   back the name exactly when the name fits in `k` bytes and holds no NUL.
   */
  lemma NameRoundTrip(name: bytes, width: nat, k: nat)
    requires k <= width
    ensures UpToNul(FixedField(name, width)[..k]) == name <==> |name| <= k && 0 !in name
  {
    var f := FixedField(name, width)[..k];
    if |name| <= k && 0 !in name {
      assert name == f[..|name|];
      UpToNulUnique(f, name);
    }
  }

  /**
   What is read back from the field in general: the name cut to `k` bytes,
   then cut at its first NUL.
   */
  lemma ReadBackName(name: bytes, width: nat, k: nat)
    requires k <= width
    ensures UpToNul(FixedField(name, width)[..k]) == UpToNul(Truncate(name, k))
  {
    var f := FixedField(name, width)[..k];
    var t := Truncate(name, k);
    var u := UpToNul(t);
    assert |u| <= |t| <= |f|;
    forall i | 0 <= i < |u|
      ensures f[i] == u[i]
    {
      assert u[i] == t[i];
    }
    assert u == f[..|u|];
    if |u| < |t| {
      assert f[|u|] == t[|u|];
    }
    UpToNulUnique(f, u);
  }

  /** The first `k` bytes of `s`, or all of `s` when it is shorter. */
  function Truncate(s: bytes, k: nat): (r: bytes)
    ensures |r| <= k && |r| <= |s| && r == s[..|r|]
    ensures |r| == k || r == s
  {
    if |s| <= k then s else s[..k]
  }

  /** The big-endian value of `s`: the sum of s[i] * 256^(|s|-1-i). */
  function BigEndian(s: bytes): (v: nat)
    ensures v < Pow256(|s|)
  {
    if |s| == 0 then 0
    else
      var p := Pow256(|s| - 1);
      var rest := BigEndian(s[1..]);
      assert s[0] * p <= 255 * p by { MulLeft(s[0], 255, p); }
      s[0] * p + rest
  }

  lemma MulLeft(a: nat, b: nat, c: nat)
    requires a <= b
    ensures a * c <= b * c
  {
  }

  /** Appending a byte shifts the big-endian value one byte to the left. */
  lemma {:induction false} BigEndianSnoc(s: bytes, b: uint8)
    ensures BigEndian(s + [b]) == BigEndian(s) * 256 + b
  {
    if |s| > 0 {
      assert (s + [b])[1..] == s[1..] + [b];
      BigEndianSnoc(s[1..], b);
      var p := Pow256(|s| - 1);
      assert Pow256(|s|) == 256 * p;
      assert s[0] * (256 * p) == (s[0] * p) * 256;
    } else {
      assert BigEndian([b]) == b * Pow256(0) + BigEndian([]);
    }
  }

  lemma Mod64(a: int, k: int, r: int)
    requires 0 <= r < Two64 && a == k * Two64 + r
    ensures a % Two64 == r
  {
  }

  lemma Mod56(a: int, k: int, r: int)
    requires 0 <= r < Two56 && a == k * Two56 + r
    ensures a % Two56 == r
  {
  }

  /** A 64-bit shift left by 8 followed by OR-ing in a byte. */
  lemma ShiftInByte(x: nat, b: uint8)
    ensures ((x % Two64) % Two56) * 256 + b == (x * 256 + b) % Two64
  {
    var q := x / Two56;
    var r := x % Two56;
    assert x == q * Two56 + r;
    Mod64(x * 256 + b, q, r * 256 + b);
    assert q == (q / 256) * 256 + q % 256;
    Mod64(x, q / 256, (q % 256) * Two56 + r);
    Mod56(x % Two64, q % 256, r);
  }

  /**
   `bytes_to_int` / `bytes_to_long`: a 64-bit accumulator shifted left by
   eight bits and OR-ed with each byte in turn, so the big-endian value of
   the array, reduced modulo 2^64.
   */
  method BytesToInt(arr: bytes) returns (value: uint64)
    ensures value == BigEndian(arr) % Two64
    ensures |arr| <= 8 ==> value == BigEndian(arr)
  {
    value := 0;
    var i := 0;
    while i < |arr|
      invariant 0 <= i <= |arr|
      invariant value == BigEndian(arr[..i]) % Two64
    {
      ShiftStep(arr, i);
      // (value << 8) keeps the low 56 bits of value; the OR fills the empty low byte
      value := (value % Two56) * 256 + arr[i];
      i := i + 1;
    }
    assert arr[..|arr|] == arr;
    if |arr| <= 8 {
      WidthBounds();
      assert Pow256(|arr|) <= Pow256(8) by { PowMonotone(|arr|, 8); }
    }
  }

  lemma ShiftStep(arr: bytes, i: nat)
    requires i < |arr|
    ensures ((BigEndian(arr[..i]) % Two64) % Two56) * 256 + arr[i] == BigEndian(arr[..i + 1]) % Two64
  {
    assert arr[..i + 1] == arr[..i] + [arr[i]];
    BigEndianSnoc(arr[..i], arr[i]);
    ShiftInByte(BigEndian(arr[..i]), arr[i]);
  }

  lemma {:induction false} PowMonotone(a: nat, b: nat)
    requires a <= b
    ensures Pow256(a) <= Pow256(b)
  {
    if a < b {
      PowMonotone(a, b - 1);
    }
  }
}

=== FILE: combiner.dfy ===
/**
 Packet discovery and ordering. A directory is the sequence of its regular
 files in listing order; each is a name and its contents, or `None` when it
 cannot be opened. A file is read with C stream semantics: a read of `n`
 bytes gets whatever is available, and a text field read into a zeroed
 buffer is the C string up to the first NUL.
 */
module Combiner {
  import opened Bytes
  import opened Wrappers
  import LexOrder
  import NameTable
  import Explorer
  import PktUtils

  /** The tag every packet starts with: the ASCII letters P, C, O, R, E. */
  const Magic: bytes := [80, 67, 79, 82, 69]

  /** Offset and length of the name a part-0 packet carries. */
  const NameOffset: nat := 31
  const NameLength: nat := 19

  datatype Entry = Entry(name: string, data: Option<bytes>)

  /** A read of `n` bytes at `pos`: the bytes available there, at most `n`. */
  function ReadAt(data: bytes, pos: nat, n: nat): (r: bytes)
    ensures |r| <= n
    ensures pos + n <= |data| ==> r == data[pos..pos + n]
    ensures pos < |data| < pos + n ==> r == data[pos..]
    ensures pos >= |data| ==> r == []
  {
    if pos >= |data| then []
    else if pos + n <= |data| then data[pos..pos + n]
    else data[pos..]
  }

  /** The first five bytes, read into a zeroed buffer and compared as a string with "PCORE". */
  predicate IsPcore(data: bytes)
  {
    UpToNul(ReadAt(data, 0, 5)) == Magic
  }

  /** A file is a packet exactly when it has at least five bytes and they spell the tag. */
  lemma IsPcoreIff(data: bytes)
    ensures IsPcore(data) <==> |data| >= 5 && data[..5] == Magic
  {
    if |data| >= 5 && data[..5] == Magic {
      UpToNulUnique(data[..5], Magic);
    }
  }

  /** The identifier: bytes 5 to 9 read as a C string. */
  function FileId(data: bytes): (r: bytes)
    ensures |r| <= 5 && 0 !in r
    ensures |data| >= 10 ==> r == UpToNul(data[5..10])
  {
    UpToNul(ReadAt(data, 5, 5))
  }

  /**
   An identifier made by `Genrate_File_ID` and stored at bytes 5 to 9 holds
   no NUL, so it is read back whole and matches itself as a target.
   */
  lemma GeneratedIdReadBack(data: bytes, draws: seq<nat>)
    requires |draws| == PktUtils.IdLength
    requires |data| >= 10 && data[5..10] == PktUtils.GenerateFileId(draws)
    ensures FileId(data) == PktUtils.GenerateFileId(draws)
  {
    var id := PktUtils.GenerateFileId(draws);
    UpToNulUnique(data[5..10], id);
  }

  /**
   The part number: bytes 10 to 13 in host order. With fewer than 14 bytes the
   variable is never written, so the value is unknown and the file is skipped.
   */
  function PartNumber(data: bytes): (r: Option<uint32>)
    ensures r.Some? <==> |data| >= 14
    ensures r.Some? ==> r.value == FromLE(data[10..14])
  {
    WidthBounds();
    if |data| >= 14 then Some(FromLE(data[10..14])) else None
  }

  /** The name in a part-0 packet: up to 19 bytes from offset 31, cut at the first NUL. */
  function StoredName(data: bytes): (r: bytes)
    ensures |r| <= NameLength && 0 !in r
    ensures |data| >= NameOffset + NameLength ==> r == UpToNul(data[NameOffset..NameOffset + NameLength])
    ensures NameOffset < |data| < NameOffset + NameLength ==> r == UpToNul(data[NameOffset..])
    ensures |data| <= NameOffset ==> r == []
  {
    UpToNul(ReadAt(data, NameOffset, NameLength))
  }

  /** The identifier of a part-0 packet; `None` for every other file. */
  function HeaderId(e: Entry): Option<bytes>
  {
    if e.data.Some? && IsPcore(e.data.value) && PartNumber(e.data.value) == Some(0)
    then Some(FileId(e.data.value)) else None
  }

  function HeaderName(e: Entry): bytes
  {
    if e.data.Some? then StoredName(e.data.value) else []
  }

  /** The names of the part-0 packets, in listing order. */
  function HeaderNames(entries: seq<Entry>): seq<bytes>
  {
    if |entries| == 0 then []
    else (if HeaderId(entries[0]).Some? then [HeaderName(entries[0])] else []) + HeaderNames(entries[1..])
  }

  /**
   The scan in `Detect_PCORE_Files`: every part-0 packet appends its name to
   the list and sets its identifier's entry in the map.
   */
  function Discover(entries: seq<Entry>): (r: (seq<bytes>, NameTable.Table))
    ensures NameTable.Sorted(r.1)
    ensures |r.1| <= |r.0|
    decreases |entries|
  {
    if |entries| == 0 then ([], [])
    else
      var (names, table) := Discover(entries[..|entries| - 1]);
      var e := entries[|entries| - 1];
      match HeaderId(e)
      case None => (names, table)
      case Some(id) => (names + [HeaderName(e)], NameTable.Insert(table, id, HeaderName(e)))
  }

  /** `j` is the last part-0 packet in the listing with identifier `k`. */
  ghost predicate LastHeaderWith(entries: seq<Entry>, j: int, k: bytes)
  {
    && 0 <= j < |entries| && HeaderId(entries[j]) == Some(k)
    && forall j' :: j < j' < |entries| ==> HeaderId(entries[j']) != Some(k)
  }

  /**
   The name the scan leaves under `k`, read off the listing alone: that of the
   last part-0 packet carrying `k`, if any.
   */
  ghost function LastNameFor(entries: seq<Entry>, k: bytes): Option<bytes>
    decreases |entries|
  {
    if |entries| == 0 then None
    else if HeaderId(entries[|entries| - 1]) == Some(k) then Some(HeaderName(entries[|entries| - 1]))
    else LastNameFor(entries[..|entries| - 1], k)
  }

  /** The map built by the scan agrees with `LastNameFor` on every identifier. */
  lemma {:induction false} DiscoverLookup(entries: seq<Entry>, k: bytes)
    ensures NameTable.Get(Discover(entries).1, k) == LastNameFor(entries, k)
    decreases |entries|
  {
    if |entries| > 0 {
      DiscoverLookup(entries[..|entries| - 1], k);
      DiscoverLastStep(entries, k);
    }
  }

  /** The last file of the listing sets its identifier's entry and leaves the others. */
  lemma DiscoverLastStep(entries: seq<Entry>, k: bytes)
    requires |entries| > 0
    ensures var e := entries[|entries| - 1];
      NameTable.Get(Discover(entries).1, k) ==
        if HeaderId(e) == Some(k) then Some(HeaderName(e))
        else NameTable.Get(Discover(entries[..|entries| - 1]).1, k)
  {
  }

  /** The map holds an identifier exactly when some part-0 packet carries it. */
  lemma DiscoverKeys(entries: seq<Entry>, k: bytes)
    ensures NameTable.Get(Discover(entries).1, k).None? <==>
      forall j :: 0 <= j < |entries| ==> HeaderId(entries[j]) != Some(k)
  {
    DiscoverLookup(entries, k);
    if j :| 0 <= j < |entries| && HeaderId(entries[j]) == Some(k) {
      LastNameForHasKey(entries, k, j);
    } else {
      LastNameForLacksKey(entries, k);
    }
  }

  lemma {:induction false} LastNameForHasKey(entries: seq<Entry>, k: bytes, j: nat)
    requires j < |entries| && HeaderId(entries[j]) == Some(k)
    ensures LastNameFor(entries, k).Some?
    decreases |entries|
  {
    var n := |entries|;
    if HeaderId(entries[n - 1]) != Some(k) {
      assert j < n - 1 && entries[..n - 1][j] == entries[j];
      LastNameForHasKey(entries[..n - 1], k, j);
    }
  }

  lemma {:induction false} LastNameForLacksKey(entries: seq<Entry>, k: bytes)
    requires forall j :: 0 <= j < |entries| ==> HeaderId(entries[j]) != Some(k)
    ensures LastNameFor(entries, k).None?
    decreases |entries|
  {
    if |entries| > 0 {
      var pre := entries[..|entries| - 1];
      forall j | 0 <= j < |pre|
        ensures HeaderId(pre[j]) != Some(k)
      {
        assert pre[j] == entries[j];
      }
      LastNameForLacksKey(pre, k);
    }
  }

  /**
   The name stored under an identifier is that of the last part-0 packet in
   listing order carrying it: a later packet overwrites an earlier one.
   */
  lemma DiscoverLastWins(entries: seq<Entry>, j: nat, k: bytes)
    requires LastHeaderWith(entries, j, k)
    ensures NameTable.Get(Discover(entries).1, k) == Some(HeaderName(entries[j]))
  {
    DiscoverLookup(entries, k);
    LastNameForLast(entries, j, k);
  }

  lemma {:induction false} LastNameForLast(entries: seq<Entry>, j: nat, k: bytes)
    requires LastHeaderWith(entries, j, k)
    ensures LastNameFor(entries, k) == Some(HeaderName(entries[j]))
    decreases |entries|
  {
    var n := |entries|;
    var pre := entries[..n - 1];
    if j < n - 1 {
      assert forall i :: 0 <= i < n - 1 ==> entries[i] == pre[i];
      assert LastHeaderWith(pre, j, k);
      LastNameForLast(pre, j, k);
    }
  }

  lemma {:induction false} HeaderNamesSnoc(entries: seq<Entry>, e: Entry)
    ensures HeaderNames(entries + [e]) ==
      HeaderNames(entries) + (if HeaderId(e).Some? then [HeaderName(e)] else [])
    decreases |entries|
  {
    if |entries| > 0 {
      assert (entries + [e])[1..] == entries[1..] + [e];
      HeaderNamesSnoc(entries[1..], e);
    } else {
      assert entries + [e] == [e];
    }
  }

  /** The name list keeps every part-0 packet's name, duplicates included, in listing order. */
  lemma {:induction false} DiscoverNames(entries: seq<Entry>)
    ensures Discover(entries).0 == HeaderNames(entries)
    decreases |entries|
  {
    if |entries| > 0 {
      var n := |entries|;
      DiscoverNames(entries[..n - 1]);
      HeaderNamesSnoc(entries[..n - 1], entries[n - 1]);
      assert entries[..n - 1] + [entries[n - 1]] == entries;
    }
  }

  /**
   `Detect_PCORE_Files`: scan, let the user pick one of the listed names with
   `keys`, and return the first identifier in map order whose name is the
   pick, or the empty string. `None` while the picker is still waiting.
   */
  function Detect(entries: seq<Entry>, keys: seq<int>): (r: Option<bytes>)
    ensures HeaderNames(entries) == [] ==> r == Some([])
    ensures r.Some? && r.value != [] ==> exists j :: 0 <= j < |entries| && HeaderId(entries[j]) == Some(r.value)
  {
    var (names, table) := Discover(entries);
    DiscoverNames(entries);
    match Explorer.Select(names, keys)
    case None => None
    case Some(selected) =>
      var id := NameTable.FirstKeyWithValue(table, selected);
      if id != [] then
        var i :| 0 <= i < |table| && table[i] == (id, selected);
        NameTable.GetAt(table, i);
        DiscoverKeys(entries, id);
        assert exists j :: 0 <= j < |entries| && HeaderId(entries[j]) == Some(id);
        Some(id)
      else Some(id)
  }

  /**
   What the picker's choice leads to: when some identifier currently maps to
   the chosen name, the result is the least such identifier in key order;
   otherwise the empty string.
   */
  lemma DetectChoosesLeastId(entries: seq<Entry>, keys: seq<int>)
    requires Explorer.Select(Discover(entries).0, keys).Some?
    ensures var selected := Explorer.Select(Discover(entries).0, keys).value;
      var table := Discover(entries).1;
      var r := Detect(entries, keys).value;
      && ((exists k :: NameTable.Get(table, k) == Some(selected)) ==>
            && NameTable.Get(table, r) == Some(selected)
            && forall k :: NameTable.Get(table, k) == Some(selected) ==> k == r || LexOrder.Less(r, k))
      && ((forall k :: NameTable.Get(table, k) != Some(selected)) ==> r == [])
  {
    var selected := Explorer.Select(Discover(entries).0, keys).value;
    var table := Discover(entries).1;
    if exists k :: NameTable.Get(table, k) == Some(selected) {
      var k :| NameTable.Get(table, k) == Some(selected);
      NameTable.GetFound(table, k);
      NameTable.FirstKeyIsLeast(table, selected);
    } else {
      forall i | 0 <= i < |table|
        ensures table[i].1 != selected
      {
        NameTable.GetAt(table, i);
      }
    }
  }

  // ---------------------------------------------------------------------------
  // The min-heap of the parts of one file
  // ---------------------------------------------------------------------------

  datatype Node = Node(splitNo: uint32, filename: string)

  /** `CompareSplitNo(a, b)`: `a` ranks below `b` in the queue, so the smallest part is on top. */
  predicate CompareSplitNo(a: Node, b: Node)
  {
    a.splitNo > b.splitNo
  }

  /**
   The node `BuildMinHeapForFile` pushes for one file, if any: the file opens,
   is a packet, carries the target identifier, has a readable part number,
   and that part is not 0.
   */
  function HeapNode(e: Entry, target: bytes): (r: Option<Node>)
    ensures r.Some? ==> r.value.splitNo != 0 && r.value.filename == e.name
    ensures r.Some? <==> e.data.Some? && IsPcore(e.data.value) && FileId(e.data.value) == target
                         && PartNumber(e.data.value).Some? && PartNumber(e.data.value).value != 0
    ensures r.Some? ==> r.value.splitNo == PartNumber(e.data.value).value
  {
    if e.data.None? then None
    else
      var d := e.data.value;
      if !IsPcore(d) || FileId(d) != target then None
      else match PartNumber(d)
        case None => None
        case Some(p) => if p != 0 then Some(Node(p, e.name)) else None
  }

  /** The nodes for all matching files, in listing order. */
  function Matching(entries: seq<Entry>, target: bytes): (r: seq<Node>)
    ensures forall n :: n in r ==> n.splitNo != 0
  {
    if |entries| == 0 then []
    else
      (match HeapNode(entries[0], target) case Some(n) => [n] case None => []) + Matching(entries[1..], target)
  }

  lemma {:induction false} MatchingSnoc(entries: seq<Entry>, e: Entry, target: bytes)
    ensures Matching(entries + [e], target) ==
      Matching(entries, target) + (match HeapNode(e, target) case Some(n) => [n] case None => [])
    decreases |entries|
  {
    if |entries| > 0 {
      assert (entries + [e])[1..] == entries[1..] + [e];
      MatchingSnoc(entries[1..], e, target);
    } else {
      assert entries + [e] == [e];
    }
  }

  /** Every matching node comes from a file of the listing that carries it. */
  lemma {:induction false} MatchingFromEntries(entries: seq<Entry>, target: bytes, n: Node)
    requires n in Matching(entries, target)
    ensures exists i :: 0 <= i < |entries| && HeapNode(entries[i], target) == Some(n)
    decreases |entries|
  {
    if HeapNode(entries[0], target) != Some(n) {
      MatchingFromEntries(entries[1..], target, n);
      var i :| 0 <= i < |entries[1..]| && HeapNode(entries[1..][i], target) == Some(n);
      assert entries[i + 1] == entries[1..][i];
    }
  }

  /** Every file that yields a node contributes it. */
  lemma {:induction false} EntriesInMatching(entries: seq<Entry>, target: bytes, i: nat)
    requires i < |entries| && HeapNode(entries[i], target).Some?
    ensures HeapNode(entries[i], target).value in Matching(entries, target)
    decreases i
  {
    if i > 0 {
      assert entries[1..][i - 1] == entries[i];
      EntriesInMatching(entries[1..], target, i - 1);
    }
  }

  /** The nodes an optional node contributes: none, or that one. */
  function NodeBag(node: Option<Node>): (b: multiset<Node>)
    ensures node.None? ==> b == multiset{}
    ensures node.Some? ==> b == multiset{node.value}
  {
    if node.Some? then multiset{node.value} else multiset{}
  }

  /** One more file of the listing adds its node, if it yields one, to the multiset of matches. */
  lemma MatchingPrefixStep(entries: seq<Entry>, i: nat, target: bytes)
    requires i < |entries|
    ensures multiset(Matching(entries[..i + 1], target)) ==
      multiset(Matching(entries[..i], target)) + NodeBag(HeapNode(entries[i], target))
  {
    assert entries[..i + 1] == entries[..i] + [entries[i]];
    MatchingSnoc(entries[..i], entries[i], target);
  }

  /**
   `BuildMinHeapForFile`: one node per matching file with a non-zero part, in
   any order: part 0, other identifiers, non-packets and unreadable files are
   left out, duplicates are kept.
   */
  method BuildMinHeap(entries: seq<Entry>, target: bytes) returns (heap: multiset<Node>)
    ensures heap == multiset(Matching(entries, target))
    ensures forall n :: n in heap ==> n.splitNo != 0
  {
    heap := multiset{};
    var i := 0;
    while i < |entries|
      invariant 0 <= i <= |entries|
      invariant heap == multiset(Matching(entries[..i], target))
    {
      MatchingPrefixStep(entries, i, target);
      heap := heap + NodeBag(HeapNode(entries[i], target));
      i := i + 1;
    }
    assert entries[..i] == entries;
  }

  /** A non-empty heap has a top: a node no other node outranks. */
  lemma TopExists(h: multiset<Node>)
    requires h != multiset{}
    ensures exists top :: top in h && forall m :: m in h ==> !CompareSplitNo(top, m)
  {
    var x :| x in h;
    TopAtOrBelow(h, x);
  }

  /** Following ever smaller parts from `x` ends at a top, since parts are natural numbers. */
  lemma {:induction false} TopAtOrBelow(h: multiset<Node>, x: Node)
    requires x in h
    ensures exists top :: top in h && forall m :: m in h ==> !CompareSplitNo(top, m)
    decreases x.splitNo
  {
    if m :| m in h && CompareSplitNo(x, m) {
      TopAtOrBelow(h, m);
    } else {
      assert forall m :: m in h ==> !CompareSplitNo(x, m);
    }
  }

  /** Parts never decrease along `order`. */
  ghost predicate Ascending(order: seq<Node>)
  {
    forall i, j :: 0 <= i < j < |order| ==> order[i].splitNo <= order[j].splitNo
  }

  /**
   Appending a top of the queue to an ascending prefix that lies below the
   queue keeps both properties for what is left.
   */
  lemma PopTop(order: seq<Node>, h: multiset<Node>, top: Node)
    requires Ascending(order)
    requires forall i, m :: 0 <= i < |order| && m in h ==> order[i].splitNo <= m.splitNo
    requires top in h && forall m :: m in h ==> !CompareSplitNo(top, m)
    ensures Ascending(order + [top])
    ensures forall i, m :: 0 <= i < |order + [top]| && m in h - multiset{top} ==> (order + [top])[i].splitNo <= m.splitNo
    ensures multiset(order + [top]) + (h - multiset{top}) == multiset(order) + h
  {
    var o := order + [top];
    forall i, j | 0 <= i < j < |o|
      ensures o[i].splitNo <= o[j].splitNo
    {
      if j < |order| {
        assert o[i] == order[i] && o[j] == order[j];
      } else {
        assert o[j] == top && o[i] == order[i];
      }
    }
    forall i, m | 0 <= i < |o| && m in h - multiset{top}
      ensures o[i].splitNo <= m.splitNo
    {
      assert m in h;
      if i == |order| {
        assert o[i] == top && !CompareSplitNo(top, m);
      } else {
        assert o[i] == order[i];
      }
    }
  }

  /**
   The loop of `PrintMinHeap`: take the top, pop it, until the queue is empty.
   Every node comes out exactly once and parts come out in ascending order.
   The queue is a copy, so the caller's heap is left as it was.
   */
  method Drain(heap: multiset<Node>) returns (order: seq<Node>)
    ensures multiset(order) == heap
    ensures Ascending(order)
  {
    var h := heap;
    order := [];
    while h != multiset{}
      invariant multiset(order) + h == heap
      invariant Ascending(order)
      invariant forall i, m :: 0 <= i < |order| && m in h ==> order[i].splitNo <= m.splitNo
      decreases |h|
    {
      TopExists(h);
      var top :| top in h && forall m :: m in h ==> !CompareSplitNo(top, m);
      PopTop(order, h, top);
      order := order + [top];
      h := h - multiset{top};
    }
  }

  /**
   Building the heap for an identifier and draining it lists the parts of
   exactly the matching files, each once, in ascending part order.
   */
  method PartsInOrder(entries: seq<Entry>, target: bytes) returns (order: seq<Node>)
    ensures Ascending(order)
    ensures multiset(order) == multiset(Matching(entries, target))
    ensures forall n :: n in order ==> n.splitNo != 0 && exists i :: 0 <= i < |entries| && HeapNode(entries[i], target) == Some(n)
    ensures forall i :: 0 <= i < |entries| && HeapNode(entries[i], target).Some? ==> HeapNode(entries[i], target).value in order
  {
    var heap := BuildMinHeap(entries, target);
    order := Drain(heap);
    forall n | n in order
      ensures exists i :: 0 <= i < |entries| && HeapNode(entries[i], target) == Some(n)
    {
      assert n in multiset(order);
      MatchingFromEntries(entries, target, n);
    }
    forall i | 0 <= i < |entries| && HeapNode(entries[i], target).Some?
      ensures HeapNode(entries[i], target).value in order
    {
      EntriesInMatching(entries, target, i);
      assert HeapNode(entries[i], target).value in multiset(order);
    }
  }
}

=== FILE: disk.dfy ===
/**
 Files as byte sequences. The directory is a map from file name to contents;
 whether the operating system lets a file be opened is an input, since it
 depends on the environment rather than on the program.
 */
module Disk {
  import opened Bytes

  type FileSystem = map<string, bytes>

  /**
   Opening `path` for binary output with truncation and writing `contents`:
   the file then holds exactly `contents`. When the open fails the error is
   reported and nothing changes. No other file is touched.
   */
  function Overwrite(fs: FileSystem, path: string, canOpen: bool, contents: bytes): (r: FileSystem)
    ensures canOpen ==> path in r && r[path] == contents
    ensures !canOpen ==> r == fs
    ensures forall p :: p in fs && p != path ==> p in r && r[p] == fs[p]
    ensures forall p :: p in r && p != path ==> p in fs
  {
    if canOpen then fs[path := contents] else fs
  }
}

=== FILE: explorer.dfy ===
/**
 The key handling of the list picker: a cursor that starts on the first
 item, moves up or down one line without leaving the list, and returns the
 item under it on Enter. Keys are an input sequence; rendering and terminal
 handling are not modelled.
 */
module Explorer {
  import opened Bytes
  import opened Wrappers

  /** Final byte of the terminal's up-arrow sequence, and the vi key for up. */
  const ArrowUp: int := 65
  const KeyK: int := 107
  /** Final byte of the down-arrow sequence, and the vi key for down. */
  const ArrowDown: int := 66
  const KeyJ: int := 106
  /** Line feed and carriage return both confirm. */
  const LineFeed: int := 10
  const CarriageReturn: int := 13

  predicate IsUp(key: int) { key == ArrowUp || key == KeyK }
  predicate IsDown(key: int) { key == ArrowDown || key == KeyJ }
  predicate IsEnter(key: int) { key == LineFeed || key == CarriageReturn }

  /** The result of one key: the cursor moved (possibly not at all), or the item under it was chosen. */
  datatype Step = Moved(cursor: nat) | Chosen(cursor: nat)

  /**
   One key on a list of `count` items: the cursor stays on the list, only
   Enter chooses, choosing keeps the cursor where it is, a key that is
   neither up, down nor Enter changes nothing, and no key moves the cursor
   by more than one line.
   */
  function Transition(cursor: nat, count: nat, key: int): (s: Step)
    requires cursor < count
    ensures s.cursor < count
    ensures s.Chosen? <==> IsEnter(key)
    ensures s.Chosen? ==> s.cursor == cursor
    ensures !IsUp(key) && !IsDown(key) && !IsEnter(key) ==> s == Moved(cursor)
    ensures IsUp(key) ==> s.cursor <= cursor && (cursor > 0 ==> s.cursor == cursor - 1)
    ensures IsDown(key) ==> s.cursor >= cursor && (cursor < count - 1 ==> s.cursor == cursor + 1)
  {
    if IsUp(key) then Moved(if cursor > 0 then cursor - 1 else cursor)
    else if IsDown(key) then Moved(if cursor < count - 1 then cursor + 1 else cursor)
    else if IsEnter(key) then Chosen(cursor)
    else Moved(cursor)
  }

  /** Reading keys from cursor position `cursor` until one chooses; `None` while none has. */
  function Run(items: seq<bytes>, cursor: nat, keys: seq<int>): (r: Option<bytes>)
    requires cursor < |items|
    ensures r.Some? ==> r.value in items
    decreases |keys|
  {
    if |keys| == 0 then None
    else
      match Transition(cursor, |items|, keys[0])
      case Chosen(c) => Some(items[c])
      case Moved(c) => Run(items, c, keys[1..])
  }

  /**
   `SHOW_SELECT_FILES`: an empty list gives the empty string without reading
   a key; otherwise the cursor starts on the first item.
   */
  function Select(items: seq<bytes>, keys: seq<int>): (r: Option<bytes>)
    ensures |items| == 0 ==> r == Some([])
    ensures |items| > 0 && |keys| > 0 && IsEnter(keys[0]) ==> r == Some(items[0])
    ensures |items| > 0 && r.Some? ==> r.value in items
  {
    if |items| == 0 then Some([]) else Run(items, 0, keys)
  }

  /** `n` copies of one key. */
  function Repeat(key: int, n: nat): (r: seq<int>)
    ensures |r| == n
    ensures forall i :: 0 <= i < n ==> r[i] == key
  {
    seq(n, _ => key)
  }

  function Min(a: int, b: int): int { if a <= b then a else b }
  function Max(a: int, b: int): int { if a >= b then a else b }

  /** Pressing down `n` times and then Enter picks the item `n` lines lower, or the last one. */
  lemma {:induction false} DownsThenEnter(items: seq<bytes>, cursor: nat, n: nat, key: int)
    requires cursor < |items|
    requires IsDown(key)
    ensures Run(items, cursor, Repeat(key, n) + [LineFeed]) == Some(items[Min(cursor + n, |items| - 1)])
    decreases n
  {
    var keys := Repeat(key, n) + [LineFeed];
    if n > 0 {
      var next := Transition(cursor, |items|, key).cursor;
      assert keys[1..] == Repeat(key, n - 1) + [LineFeed];
      DownsThenEnter(items, next, n - 1, key);
    }
  }

  /** Pressing up `n` times and then Enter picks the item `n` lines higher, or the first one. */
  lemma {:induction false} UpsThenEnter(items: seq<bytes>, cursor: nat, n: nat, key: int)
    requires cursor < |items|
    requires IsUp(key)
    ensures Run(items, cursor, Repeat(key, n) + [LineFeed]) == Some(items[Max(cursor - n, 0)])
    decreases n
  {
    var keys := Repeat(key, n) + [LineFeed];
    if n > 0 {
      var next := Transition(cursor, |items|, key).cursor;
      assert keys[1..] == Repeat(key, n - 1) + [LineFeed];
      UpsThenEnter(items, next, n - 1, key);
    }
  }

  /** Keys that are neither up, down nor Enter are ignored. */
  lemma {:induction false} OtherKeysIgnored(items: seq<bytes>, cursor: nat, others: seq<int>, keys: seq<int>)
    requires cursor < |items|
    requires forall i :: 0 <= i < |others| ==> !IsUp(others[i]) && !IsDown(others[i]) && !IsEnter(others[i])
    ensures Run(items, cursor, others + keys) == Run(items, cursor, keys)
  {
    if |others| > 0 {
      assert (others + keys)[0] == others[0];
      assert Transition(cursor, |items|, others[0]) == Moved(cursor);
      assert (others + keys)[1..] == others[1..] + keys;
      assert Run(items, cursor, others + keys) == Run(items, cursor, others[1..] + keys);
      OtherKeysIgnored(items, cursor, others[1..], keys);
    } else {
      assert others + keys == keys;
    }
  }

  /** Without an Enter key, nothing is chosen: the loop keeps waiting for input. */
  lemma {:induction false} NoEnterNoChoice(items: seq<bytes>, cursor: nat, keys: seq<int>)
    requires cursor < |items|
    requires forall i :: 0 <= i < |keys| ==> !IsEnter(keys[i])
    ensures Run(items, cursor, keys) == None
    decreases |keys|
  {
    if |keys| > 0 {
      NoEnterNoChoice(items, Transition(cursor, |items|, keys[0]).cursor, keys[1..]);
    }
  }
}

=== FILE: full_header.dfy ===
/**
 The second `Full_Header` draft: a 7-byte file identifier, 32-bit part,
 total and payload fields, a 64-bit file size and a 22-byte name, 50 bytes in
 all. Its decoder reads only 48 bytes and only the first 16 bytes of the
 name field.
 */
module FullHeaderDraft {
  import opened Bytes
  import opened Wrappers
  import Disk

  const IdWidth: nat := 7

  /** Width of the filename member. */
  const NameWidth: nat := 22

  /** Bytes the struct occupies: 7+4+4+1+4+8+22. */
  const HeaderSize: nat := 50

  /** Bytes the decoder reads: 7+4+4+1+4+8+20. */
  const ReadSize: nat := 48

  /** Name bytes the decoder looks at. */
  const ReadNameWidth: nat := 16

  /** The struct: every member is a byte array, so there is no padding. */
  datatype FullHeader = FullHeader(
    fileId: bytes,
    partNumber: bytes,
    noOfParts: bytes,
    flags: bytes,
    payloadSize: bytes,
    fileSize: bytes,
    filename: bytes)
  {
    predicate WellFormed()
    {
      && |fileId| == IdWidth && |partNumber| == 4 && |noOfParts| == 4 && |flags| == 1
      && |payloadSize| == 4 && |fileSize| == 8 && |filename| == NameWidth
    }
  }

  /** The field values the decoder prints. */
  datatype FullInfo = FullInfo(
    fileId: bytes,
    partNumber: uint32,
    totalParts: uint32,
    flag: uint8,
    payloadSize: uint32,
    fileSize: uint64,
    filename: bytes)

  /**
   The constructor: identifier copied verbatim, integers in host
   (little-endian) order, the name zero-padded or cut to 22 bytes.
   */
  function Construct(id: bytes, part: uint32, numParts: uint32, flag: uint8,
                     payload: uint32, fsize: uint64, fname: bytes): (h: FullHeader)
    requires |id| == IdWidth
    ensures h.WellFormed()
    ensures h.fileId == id && h.flags == [flag]
    ensures FromLE(h.partNumber) == part && FromLE(h.noOfParts) == numParts
    ensures FromLE(h.payloadSize) == payload && FromLE(h.fileSize) == fsize
    ensures forall i :: 0 <= i < NameWidth ==> h.filename[i] == (if i < |fname| then fname[i] else 0)
  {
    WidthBounds();
    FromLEOfLE(part, 4);
    FromLEOfLE(numParts, 4);
    FromLEOfLE(payload, 4);
    FromLEOfLE(fsize, 8);
    FullHeader(id, LE(part, 4), LE(numParts, 4), [flag], LE(payload, 4), LE(fsize, 8),
               FixedField(fname, NameWidth))
  }

  /**
   The factory passes every argument through unchanged; in particular the
   part number is whatever the caller gives, not forced to 0.
   */
  function Factory(id: bytes, partNumber: uint32, numParts: uint32, flag: uint8,
                   payload: uint32, fsize: uint64, fname: bytes): (h: FullHeader)
    requires |id| == IdWidth
    ensures h.WellFormed()
    ensures var d := Decode(Image(h)).value;
      d.fileId == id && d.partNumber == partNumber && d.totalParts == numParts
      && d.flag == flag && d.payloadSize == payload && d.fileSize == fsize
    ensures forall i :: 0 <= i < NameWidth ==> h.filename[i] == (if i < |fname| then fname[i] else 0)
  {
    RoundTrip(id, partNumber, numParts, flag, payload, fsize, fname);
    Construct(id, partNumber, numParts, flag, payload, fsize, fname)
  }

  /** The bytes `Write_Full_Header` puts in the file: the struct's image. */
  function Image(h: FullHeader): (r: bytes)
    requires h.WellFormed()
    ensures |r| == HeaderSize
  {
    h.fileId + h.partNumber + h.noOfParts + h.flags + h.payloadSize + h.fileSize + h.filename
  }

  /** `Write_Full_Header`: the file is truncated and then holds the 50-byte image. */
  function Write(fs: Disk.FileSystem, path: string, canOpen: bool, h: FullHeader): (r: Disk.FileSystem)
    requires h.WellFormed()
    ensures canOpen ==> path in r && r[path] == Image(h) && |r[path]| == HeaderSize
                        && Decode(r[path]) == Some(Info(h))
    ensures !canOpen ==> r == fs
    ensures forall p :: p in fs && p != path ==> p in r && r[p] == fs[p]
    ensures forall p :: p in r && p != path ==> p in fs
  {
    DecodeImage(h);
    Disk.Overwrite(fs, path, canOpen, Image(h))
  }

  /**
   The decoding half of `Read_And_Print_Full_Header` as written: read 48
   bytes, fail if fewer are available, slice the fields at fixed offsets and
   read the name as a C string of at most 16 bytes. The payload field is 4
   bytes copied into a 64-bit variable; it is read here as the stored 32-bit
   value.
   */
  function Decode(file: bytes): (r: Option<FullInfo>)
    ensures r.None? <==> |file| < ReadSize
    ensures r.Some? ==> r.value.fileId == file[..IdWidth]
    ensures r.Some? ==> 0 !in r.value.filename && |r.value.filename| <= ReadNameWidth
  {
    if |file| < ReadSize then None
    else
      var b := file[..ReadSize];
      WidthBounds();
      Some(FullInfo(b[..7], FromLE(b[7..11]), FromLE(b[11..15]), b[15], FromLE(b[16..20]),
                    FromLE(b[20..28]), UpToNul(b[28..44])))
  }

  /** What a well-formed struct decodes to under `Decode`. */
  function Info(h: FullHeader): FullInfo
    requires h.WellFormed()
  {
    WidthBounds();
    FullInfo(h.fileId, FromLE(h.partNumber), FromLE(h.noOfParts), h.flags[0],
             FromLE(h.payloadSize), FromLE(h.fileSize), UpToNul(h.filename[..ReadNameWidth]))
  }

  lemma DecodeImage(h: FullHeader)
    requires h.WellFormed()
    ensures Decode(Image(h)) == Some(Info(h))
  {
    var b := Image(h);
    var p := b[..ReadSize];
    assert b[..ReadSize][..ReadSize] == p;
    assert p[..7] == h.fileId;
    assert forall i :: 0 <= i < 4 ==> p[7 + i] == h.partNumber[i] && p[11 + i] == h.noOfParts[i];
    assert p[7..11] == h.partNumber;
    assert p[11..15] == h.noOfParts;
    assert p[15] == h.flags[0];
    assert forall i :: 0 <= i < 4 ==> p[16 + i] == h.payloadSize[i];
    assert p[16..20] == h.payloadSize;
    assert forall i :: 0 <= i < 8 ==> p[20 + i] == h.fileSize[i];
    assert p[20..28] == h.fileSize;
    assert forall i :: 0 <= i < 16 ==> p[28 + i] == h.filename[i];
    assert p[28..44] == h.filename[..ReadNameWidth];
  }

  /**
   Round trip through the constructor: identifier, part, total, flag, payload
   and file size come back exactly; the name comes back cut to 16 bytes and
   at its first NUL.
   */
  lemma RoundTrip(id: bytes, part: uint32, numParts: uint32, flag: uint8,
                  payload: uint32, fsize: uint64, fname: bytes)
    requires |id| == IdWidth
    ensures var r := Decode(Image(Construct(id, part, numParts, flag, payload, fsize, fname)));
      && r.Some?
      && r.value.fileId == id && r.value.partNumber == part && r.value.totalParts == numParts
      && r.value.flag == flag && r.value.payloadSize == payload && r.value.fileSize == fsize
      && r.value.filename == UpToNul(Truncate(fname, ReadNameWidth))
  {
    var h := Construct(id, part, numParts, flag, payload, fsize, fname);
    DecodeImage(h);
    assert h.filename == FixedField(fname, NameWidth);
    ReadBackName(fname, NameWidth, ReadNameWidth);
  }

  /** The name survives the round trip exactly when it is at most 16 bytes and holds no NUL. */
  lemma NameRoundTripIff(id: bytes, part: uint32, numParts: uint32, flag: uint8,
                         payload: uint32, fsize: uint64, fname: bytes)
    requires |id| == IdWidth
    ensures Decode(Image(Construct(id, part, numParts, flag, payload, fsize, fname))).value.filename == fname
        <==> |fname| <= ReadNameWidth && 0 !in fname
  {
    var h := Construct(id, part, numParts, flag, payload, fsize, fname);
    DecodeImage(h);
    assert h.filename == FixedField(fname, NameWidth);
    NameRoundTrip(fname, NameWidth, ReadNameWidth);
  }

  /**
   The decoder stops two bytes short of what the constructor writes: a file
   holding only the first 48 bytes of an image decodes like the whole image,
   and 48 bytes is the least it accepts.
   */
  lemma ReadsFewerThanWritten(h: FullHeader)
    requires h.WellFormed()
    ensures Decode(Image(h)[..ReadSize]) == Decode(Image(h))
    ensures Decode(Image(h)[..ReadSize - 1]).None?
  {
    var b := Image(h);
    assert b[..ReadSize][..ReadSize] == b[..ReadSize];
  }

  /**
   A name of 17 to 22 bytes with no NUL is stored intact in the 22-byte field
   but decodes to its first 16 bytes only.
   */
  lemma LongNameLost(id: bytes, part: uint32, numParts: uint32, flag: uint8,
                     payload: uint32, fsize: uint64, fname: bytes)
    requires |id| == IdWidth
    requires ReadNameWidth < |fname| <= NameWidth && 0 !in fname
    ensures var image := Image(Construct(id, part, numParts, flag, payload, fsize, fname));
      && image[28..28 + |fname|] == fname
      && Decode(image).value.filename == fname[..ReadNameWidth] != fname
  {
    var h := Construct(id, part, numParts, flag, payload, fsize, fname);
    RoundTrip(id, part, numParts, flag, payload, fsize, fname);
    var image := Image(h);
    assert image[28..50] == h.filename;
    assert h.filename[..|fname|] == fname;
    assert image[28..28 + |fname|] == h.filename[..|fname|];
    var t := fname[..ReadNameWidth];
    assert Truncate(fname, ReadNameWidth) == t;
    UpToNulUnique(t, t);
  }

  /**
   The decoder the layout calls for: read all 50 bytes and the whole 22-byte
   name field. Every other field is read as `Decode` reads it.
   */
  function DecodeWholeName(file: bytes): (r: Option<FullInfo>)
    ensures r.None? <==> |file| < HeaderSize
    ensures r.Some? ==> 0 !in r.value.filename && |r.value.filename| <= NameWidth
    ensures r.Some? ==> var d := Decode(file).value;
      r.value == d.(filename := r.value.filename) && d.filename == UpToNul(Truncate(r.value.filename, ReadNameWidth))
    ensures r.Some? ==> var n := r.value.filename;
      n == file[28..28 + |n|] && (|n| == NameWidth || file[28 + |n|] == 0)
  {
    if |file| < HeaderSize then None
    else
      var name := UpToNul(file[28..50]);
      var d := Decode(file).value;
      assert file[..ReadSize][28..44] == file[28..44];
      assert file[28..50][..ReadNameWidth] == file[28..44];
      CutBeforeNul(file[28..50], ReadNameWidth);
      UpToNulUnique(Truncate(name, ReadNameWidth), Truncate(name, ReadNameWidth));
      Some(d.(filename := name))
  }

  /** With the whole field read, a name round-trips exactly when it fits in 22 bytes and holds no NUL. */
  lemma WholeNameRoundTripIff(id: bytes, part: uint32, numParts: uint32, flag: uint8,
                              payload: uint32, fsize: uint64, fname: bytes)
    requires |id| == IdWidth
    ensures DecodeWholeName(Image(Construct(id, part, numParts, flag, payload, fsize, fname))).value.filename == fname
        <==> |fname| <= NameWidth && 0 !in fname
  {
    var h := Construct(id, part, numParts, flag, payload, fsize, fname);
    assert Image(h)[28..50] == h.filename;
    assert h.filename == FixedField(fname, NameWidth)[..NameWidth];
    NameRoundTrip(fname, NameWidth, NameWidth);
  }
}

=== FILE: legacy_header.dfy ===
/**
 The first header draft: a 50-byte `Full_Header` with no file identifier and
 64-bit size fields, written as the raw image of the struct, and the decoder
 inside its printing routine. (Its `Mini_Header` is the same code as the
 third draft and is modelled once, in `MiniHeaderDraft`.)
 */
module LegacyHeader {
  import opened Bytes
  import opened Wrappers
  import Disk

  /** Width of the filename member. */
  const NameWidth: nat := 16

  /** Bytes the struct occupies and the decoder reads: 1+4+4+1+8+8+8+16. */
  const HeaderSize: nat := 50

  /** The struct: every member is a byte array, so there is no padding. */
  datatype FullHeader = FullHeader(
    version: bytes,
    partNumber: bytes,
    totalParts: bytes,
    flag: bytes,
    payloadSize: bytes,
    packetSize: bytes,
    fileSize: bytes,
    filename: bytes)
  {
    /** Each member has the width of its array. */
    predicate WellFormed()
    {
      && |version| == 1 && |partNumber| == 4 && |totalParts| == 4 && |flag| == 1
      && |payloadSize| == 8 && |packetSize| == 8 && |fileSize| == 8
      && |filename| == NameWidth
    }
  }

  /** The field values the decoder prints. */
  datatype FullInfo = FullInfo(
    version: uint8,
    partNumber: uint32,
    totalParts: uint32,
    flag: uint8,
    payloadSize: uint64,
    packetSize: uint64,
    fileSize: uint64,
    filename: bytes)

  /**
   The constructor: integers copied into their arrays in host (little-endian)
   order, the name copied byte for byte and zero-padded or cut to 16 bytes.
   */
  function Construct(ver: uint8, part: uint32, total: uint32, flg: uint8,
                     payload: uint64, packet: uint64, fsize: uint64, fname: bytes): (h: FullHeader)
    ensures h.WellFormed()
    ensures h.version == [ver] && h.flag == [flg]
    ensures FromLE(h.partNumber) == part && FromLE(h.totalParts) == total
    ensures FromLE(h.payloadSize) == payload && FromLE(h.packetSize) == packet
    ensures FromLE(h.fileSize) == fsize
    ensures forall i :: 0 <= i < NameWidth ==> h.filename[i] == (if i < |fname| then fname[i] else 0)
  {
    WidthBounds();
    FromLEOfLE(part, 4);
    FromLEOfLE(total, 4);
    FromLEOfLE(payload, 8);
    FromLEOfLE(packet, 8);
    FromLEOfLE(fsize, 8);
    FullHeader([ver], LE(part, 4), LE(total, 4), [flg], LE(payload, 8), LE(packet, 8),
               LE(fsize, 8), FixedField(fname, NameWidth))
  }

  /**
   The factory: its parameter types narrow part and total to 16 bits and the
   payload and packet sizes to 32 bits (C++ unsigned conversion, i.e. the
   value modulo 2^k) before the constructor widens them again.
   */
  function Factory(version: int, partNumber: int, totalParts: int, flag: int,
                   payloadSize: int, packetSize: int, fileSize: int, filename: bytes): (h: FullHeader)
    ensures h.WellFormed()
    ensures FromLE(h.partNumber) == partNumber % 0x1_0000
    ensures FromLE(h.totalParts) == totalParts % 0x1_0000
    ensures FromLE(h.payloadSize) == payloadSize % 0x1_0000_0000
    ensures FromLE(h.packetSize) == packetSize % 0x1_0000_0000
    ensures FromLE(h.fileSize) == fileSize % Two64
    ensures h.version == [version % 0x100] && h.flag == [flag % 0x100]
    ensures forall i :: 0 <= i < NameWidth ==> h.filename[i] == (if i < |filename| then filename[i] else 0)
  {
    Construct(version % 0x100, partNumber % 0x1_0000, totalParts % 0x1_0000, flag % 0x100,
              payloadSize % 0x1_0000_0000, packetSize % 0x1_0000_0000,
              fileSize % Two64, filename)
  }

  /** The bytes `Write_Full_Header` puts in the file: the struct's image. */
  function Image(h: FullHeader): (r: bytes)
    requires h.WellFormed()
    ensures |r| == HeaderSize
  {
    h.version + h.partNumber + h.totalParts + h.flag + h.payloadSize + h.packetSize
      + h.fileSize + h.filename
  }

  /** `Write_Full_Header`: the file is truncated and then holds the image. */
  function Write(fs: Disk.FileSystem, path: string, canOpen: bool, h: FullHeader): (r: Disk.FileSystem)
    requires h.WellFormed()
    ensures canOpen ==> path in r && r[path] == Image(h) && |r[path]| == HeaderSize
                        && Decode(r[path]) == Some(Info(h))
    ensures !canOpen ==> r == fs
    ensures forall p :: p in fs && p != path ==> p in r && r[p] == fs[p]
    ensures forall p :: p in r && p != path ==> p in fs
  {
    DecodeImage(h);
    Disk.Overwrite(fs, path, canOpen, Image(h))
  }

  /**
   The decoding half of `Read_And_Print_Full_Header`: read 50 bytes, fail if
   fewer are available, slice the fields at fixed offsets (integers in host
   order) and read the name as a C string of at most 16 bytes.
   */
  function Decode(file: bytes): (r: Option<FullInfo>)
    ensures r.None? <==> |file| < HeaderSize
    ensures r.Some? ==> 0 !in r.value.filename && |r.value.filename| <= NameWidth
  {
    if |file| < HeaderSize then None
    else
      var b := file[..HeaderSize];
      WidthBounds();
      Some(FullInfo(b[0], FromLE(b[1..5]), FromLE(b[5..9]), b[9], FromLE(b[10..18]),
                    FromLE(b[18..26]), FromLE(b[26..34]), UpToNul(b[34..50])))
  }

  /** What a well-formed struct decodes to. */
  function Info(h: FullHeader): FullInfo
    requires h.WellFormed()
  {
    WidthBounds();
    FullInfo(h.version[0], FromLE(h.partNumber), FromLE(h.totalParts), h.flag[0],
             FromLE(h.payloadSize), FromLE(h.packetSize), FromLE(h.fileSize), UpToNul(h.filename))
  }

  /** The decoder reads back every member of the image at the offset it was written to. */
  lemma DecodeImage(h: FullHeader)
    requires h.WellFormed()
    ensures Decode(Image(h)) == Some(Info(h))
  {
    var b := Image(h);
    assert b[..HeaderSize] == b;
    assert b[0] == h.version[0] && b[9] == h.flag[0];
    assert b[1..5] == h.partNumber;
    assert b[5..9] == h.totalParts;
    assert b[10..18] == h.payloadSize;
    assert b[18..26] == h.packetSize;
    assert b[26..34] == h.fileSize;
    assert b[34..50] == h.filename;
  }

  /**
   Round trip through the constructor: every integer comes back exactly; the
   name comes back cut to 16 bytes and at its first NUL.
   */
  lemma RoundTrip(ver: uint8, part: uint32, total: uint32, flg: uint8,
                  payload: uint64, packet: uint64, fsize: uint64, fname: bytes)
    ensures var r := Decode(Image(Construct(ver, part, total, flg, payload, packet, fsize, fname)));
      && r.Some?
      && r.value.version == ver && r.value.partNumber == part && r.value.totalParts == total
      && r.value.flag == flg && r.value.payloadSize == payload && r.value.packetSize == packet
      && r.value.fileSize == fsize
      && r.value.filename == UpToNul(Truncate(fname, NameWidth))
  {
    var h := Construct(ver, part, total, flg, payload, packet, fsize, fname);
    DecodeImage(h);
    assert h.filename == FixedField(fname, NameWidth);
    ReadBackName(fname, NameWidth, NameWidth);
    assert FixedField(fname, NameWidth)[..NameWidth] == h.filename;
  }

  /** The name survives the round trip exactly when it is at most 16 bytes and holds no NUL. */
  lemma NameRoundTripIff(ver: uint8, part: uint32, total: uint32, flg: uint8,
                         payload: uint64, packet: uint64, fsize: uint64, fname: bytes)
    ensures Decode(Image(Construct(ver, part, total, flg, payload, packet, fsize, fname))).value.filename == fname
        <==> |fname| <= NameWidth && 0 !in fname
  {
    var h := Construct(ver, part, total, flg, payload, packet, fsize, fname);
    DecodeImage(h);
    assert h.filename == FixedField(fname, NameWidth)[..NameWidth];
    NameRoundTrip(fname, NameWidth, NameWidth);
  }

  /** Bytes after the first 50 are never read. */
  lemma DecodeReadsPrefix(file: bytes)
    requires |file| >= HeaderSize
    ensures Decode(file) == Decode(file[..HeaderSize])
  {
    assert file[..HeaderSize][..HeaderSize] == file[..HeaderSize];
  }

  /** Part and total go through 16-bit factory parameters: 65536 is stored as 0. */
  lemma FactoryNarrowsPart(fname: bytes)
    ensures Decode(Image(Factory(1, 0x1_0000, 0x1_0001, 0, 0, 0, 0, fname))).value.partNumber == 0
    ensures Decode(Image(Factory(1, 0x1_0000, 0x1_0001, 0, 0, 0, 0, fname))).value.totalParts == 1
  {
    var h := Factory(1, 0x1_0000, 0x1_0001, 0, 0, 0, 0, fname);
    DecodeImage(h);
  }
}

=== FILE: lex_order.dfy ===
/**
 The order `std::map<std::string, …>` keeps its keys in: lexicographic
 comparison of bytes as unsigned values, a proper prefix coming first.
 */
module LexOrder {
  import opened Bytes

  predicate Less(a: bytes, b: bytes)
  {
    if |a| == 0 then |b| > 0
    else if |b| == 0 then false
    else a[0] < b[0] || (a[0] == b[0] && Less(a[1..], b[1..]))
  }

  lemma {:induction false} Irreflexive(a: bytes)
    ensures !Less(a, a)
  {
    if |a| > 0 {
      Irreflexive(a[1..]);
    }
  }

  lemma {:induction false} Transitive(a: bytes, b: bytes, c: bytes)
    requires Less(a, b) && Less(b, c)
    ensures Less(a, c)
  {
    if |a| > 0 && |b| > 0 && |c| > 0 && a[0] == b[0] == c[0] {
      Transitive(a[1..], b[1..], c[1..]);
    }
  }

  lemma {:induction false} Total(a: bytes, b: bytes)
    requires a != b
    ensures Less(a, b) || Less(b, a)
  {
    if |a| > 0 && |b| > 0 && a[0] == b[0] {
      assert a == [a[0]] + a[1..] && b == [b[0]] + b[1..];
      Total(a[1..], b[1..]);
    }
  }

  lemma Asymmetric(a: bytes, b: bytes)
    requires Less(a, b)
    ensures !Less(b, a)
  {
    if Less(b, a) {
      Transitive(a, b, a);
      Irreflexive(a);
    }
  }
}

=== FILE: mini_header.dfy ===
/**
 The 15-byte `Mini_Header` draft: a 7-byte file identifier, a 32-bit part
 number and a 32-bit packet size, written as the raw image of the struct.
 The first draft declares the identical struct and decoder; this module
 models both.
 */
module MiniHeaderDraft {
  import opened Bytes
  import opened Wrappers
  import Disk

  const IdWidth: nat := 7

  /** Bytes the struct occupies and the decoder reads: 7+4+4. */
  const HeaderSize: nat := 15

  /** The struct: three byte arrays, no padding. */
  datatype MiniHeader = MiniHeader(fileId: bytes, partNumber: bytes, packetSize: bytes)
  {
    predicate WellFormed()
    {
      |fileId| == IdWidth && |partNumber| == 4 && |packetSize| == 4
    }
  }

  /** The field values the decoder prints. */
  datatype MiniInfo = MiniInfo(fileId: bytes, partNumber: uint32, packetSize: uint32)

  /** The constructor: the identifier copied verbatim, both integers in host (little-endian) order. */
  function Construct(id: bytes, part: uint32, size: uint32): (h: MiniHeader)
    requires |id| == IdWidth
    ensures h.WellFormed()
    ensures h.fileId == id
    ensures FromLE(h.partNumber) == part && FromLE(h.packetSize) == size
  {
    WidthBounds();
    FromLEOfLE(part, 4);
    FromLEOfLE(size, 4);
    MiniHeader(id, LE(part, 4), LE(size, 4))
  }

  /** The factory hands its arguments to the constructor unchanged: decoding gives them all back. */
  function Factory(id: bytes, partNo: uint32, packetSize: uint32): (h: MiniHeader)
    requires |id| == IdWidth
    ensures h.WellFormed()
    ensures Decode(Image(h)) == Some(MiniInfo(id, partNo, packetSize))
  {
    RoundTrip(id, partNo, packetSize);
    Construct(id, partNo, packetSize)
  }

  /** The bytes `Write_Mini_Header` puts in the file: `sizeof(Mini_Header)` bytes of the struct. */
  function Image(h: MiniHeader): (r: bytes)
    requires h.WellFormed()
    ensures |r| == HeaderSize
  {
    h.fileId + h.partNumber + h.packetSize
  }

  /**
   `Write_Mini_Header`: the file is truncated, then holds exactly the 15-byte
   image, which decodes to the struct's values; other files are untouched.
   */
  function Write(fs: Disk.FileSystem, path: string, canOpen: bool, h: MiniHeader): (r: Disk.FileSystem)
    requires h.WellFormed()
    ensures canOpen ==> path in r && r[path] == Image(h) && Decode(r[path]) == Some(Info(h))
    ensures !canOpen ==> r == fs
    ensures forall p :: p in fs && p != path ==> p in r && r[p] == fs[p]
    ensures forall p :: p in r && p != path ==> p in fs
  {
    DecodeImage(h);
    Disk.Overwrite(fs, path, canOpen, Image(h))
  }

  /**
   The decoding half of `Read_And_Print_Mini_Header`: read 15 bytes, fail if
   fewer are available, take the 7 identifier bytes verbatim (NULs included)
   and the two integers in host order.
   */
  function Decode(file: bytes): (r: Option<MiniInfo>)
    ensures r.None? <==> |file| < HeaderSize
    ensures r.Some? ==> r.value.fileId == file[..IdWidth]
  {
    if |file| < HeaderSize then None
    else
      var b := file[..HeaderSize];
      WidthBounds();
      Some(MiniInfo(b[..7], FromLE(b[7..11]), FromLE(b[11..15])))
  }

  /** What a well-formed struct decodes to. */
  function Info(h: MiniHeader): MiniInfo
    requires h.WellFormed()
  {
    WidthBounds();
    MiniInfo(h.fileId, FromLE(h.partNumber), FromLE(h.packetSize))
  }

  lemma DecodeImage(h: MiniHeader)
    requires h.WellFormed()
    ensures Decode(Image(h)) == Some(Info(h))
  {
    var b := Image(h);
    assert b[..HeaderSize] == b;
    assert b[..7] == h.fileId;
    assert b[7..11] == h.partNumber;
    assert b[11..15] == h.packetSize;
  }

  /** Decoding an encoded header returns exactly the identifier, part and size it was built from. */
  lemma RoundTrip(id: bytes, part: uint32, size: uint32)
    requires |id| == IdWidth
    ensures Decode(Image(Construct(id, part, size))) == Some(MiniInfo(id, part, size))
  {
    DecodeImage(Construct(id, part, size));
  }

  /** Conversely, every 15 bytes are the image of the header built from what they decode to. */
  lemma DecodeThenEncode(file: bytes)
    requires |file| == HeaderSize
    ensures var d := Decode(file).value; Image(Construct(d.fileId, d.partNumber, d.packetSize)) == file
  {
    assert file[..HeaderSize] == file;
    var d := Decode(file).value;
    LEOfFromLE(file[7..11]);
    LEOfFromLE(file[11..15]);
    assert file == file[..7] + file[7..11] + file[11..15];
  }

  /** Bytes after the first 15 are never read. */
  lemma DecodeReadsPrefix(file: bytes)
    requires |file| >= HeaderSize
    ensures Decode(file) == Decode(file[..HeaderSize])
  {
    assert file[..HeaderSize][..HeaderSize] == file[..HeaderSize];
  }
}

=== FILE: name_table.dfy ===
/**
 The `std::map<std::string, std::string>` from file identifier to stored
 name: an association list kept in strictly increasing key order, so that
 iteration visits keys in the map's order and each key appears once.
 */
module NameTable {
  import opened Bytes
  import opened Wrappers
  import LexOrder

  type Table = seq<(bytes, bytes)>

  /** Keys strictly increase along the list. */
  ghost predicate Sorted(t: Table)
  {
    forall i, j :: 0 <= i < j < |t| ==> LexOrder.Less(t[i].0, t[j].0)
  }

  /** The value stored under `k`, if any. */
  function Get(t: Table, k: bytes): Option<bytes>
  {
    if |t| == 0 then None
    else if t[0].0 == k then Some(t[0].1)
    else Get(t[1..], k)
  }

  /**
   `m[k] = v`: afterwards `k` maps to `v`, every other key keeps its value,
   and the keys stay in order.
   */
  function Insert(t: Table, k: bytes, v: bytes): (r: Table)
    requires Sorted(t)
    ensures Sorted(r)
    ensures |r| <= |t| + 1
    ensures forall x :: Get(r, x) == if x == k then Some(v) else Get(t, x)
    ensures forall i :: 0 <= i < |r| ==> r[i].0 == k || exists j :: 0 <= j < |t| && t[j].0 == r[i].0
  {
    if |t| == 0 then [(k, v)]
    else if t[0].0 == k then [(k, v)] + t[1..]
    else if LexOrder.Less(k, t[0].0) then
      forall j | 0 <= j < |t|
        ensures LexOrder.Less(k, t[j].0)
      {
        if j > 0 {
          LexOrder.Transitive(k, t[0].0, t[j].0);
        }
      }
      [(k, v)] + t
    else
      LexOrder.Total(k, t[0].0);
      var rest := Insert(t[1..], k, v);
      forall i | 0 <= i < |rest|
        ensures LexOrder.Less(t[0].0, rest[i].0)
      {
      }
      [t[0]] + rest
  }

  /** In an ordered list every key is found at its own position. */
  lemma GetAt(t: Table, i: nat)
    requires Sorted(t) && i < |t|
    ensures Get(t, t[i].0) == Some(t[i].1)
  {
    if i > 0 {
      LexOrder.Irreflexive(t[i].0);
      assert LexOrder.Less(t[0].0, t[i].0);
      assert t[1..][i - 1] == t[i];
      GetAt(t[1..], i - 1);
    }
  }

  /** What `Get` finds is stored at some position. */
  lemma GetFound(t: Table, k: bytes)
    requires Get(t, k).Some?
    ensures exists i :: 0 <= i < |t| && t[i] == (k, Get(t, k).value)
  {
    if t[0].0 != k {
      GetFound(t[1..], k);
      var i :| 0 <= i < |t[1..]| && t[1..][i] == (k, Get(t, k).value);
      assert t[i + 1] == t[1..][i];
    }
  }

  /**
   The loop over the map in key order that returns the first key whose value
   is `name`, or the empty string when no value matches.
   */
  function FirstKeyWithValue(t: Table, name: bytes): (r: bytes)
    ensures (forall i :: 0 <= i < |t| ==> t[i].1 != name) ==> r == []
    ensures (exists i :: 0 <= i < |t| && t[i].1 == name) ==>
      exists i :: 0 <= i < |t| && t[i] == (r, name) && forall j :: 0 <= j < i ==> t[j].1 != name
  {
    if |t| == 0 then []
    else if t[0].1 == name then t[0].0
    else
      var r := FirstKeyWithValue(t[1..], name);
      FirstKeyStep(t, name, r);
      r
  }

  lemma FirstKeyStep(t: Table, name: bytes, r: bytes)
    requires |t| > 0 && t[0].1 != name
    requires (exists i :: 0 <= i < |t[1..]| && t[1..][i].1 == name) ==>
      exists i :: 0 <= i < |t[1..]| && t[1..][i] == (r, name) && forall j :: 0 <= j < i ==> t[1..][j].1 != name
    ensures (exists i :: 0 <= i < |t| && t[i].1 == name) ==>
      exists i :: 0 <= i < |t| && t[i] == (r, name) && forall j :: 0 <= j < i ==> t[j].1 != name
  {
    if exists i :: 0 <= i < |t| && t[i].1 == name {
      var i0 :| 0 <= i0 < |t| && t[i0].1 == name;
      assert t[1..][i0 - 1].1 == name;
      var i :| 0 <= i < |t[1..]| && t[1..][i] == (r, name) && forall j :: 0 <= j < i ==> t[1..][j].1 != name;
      assert t[i + 1] == (r, name);
      forall j | 0 <= j < i + 1
        ensures t[j].1 != name
      {
        if j > 0 {
          assert t[j] == t[1..][j - 1];
        }
      }
    }
  }

  /**
   In key order, the first key with a value is the least key with that value:
   the key found maps to the name and every other key mapping to it is larger.
   */
  lemma FirstKeyIsLeast(t: Table, name: bytes)
    requires Sorted(t)
    requires exists i :: 0 <= i < |t| && t[i].1 == name
    ensures Get(t, FirstKeyWithValue(t, name)) == Some(name)
    ensures forall k :: Get(t, k) == Some(name) ==> k == FirstKeyWithValue(t, name) || LexOrder.Less(FirstKeyWithValue(t, name), k)
  {
    var r := FirstKeyWithValue(t, name);
    var i :| 0 <= i < |t| && t[i] == (r, name) && forall j :: 0 <= j < i ==> t[j].1 != name;
    GetAt(t, i);
    forall k | Get(t, k) == Some(name)
      ensures k == r || LexOrder.Less(r, k)
    {
      GetFound(t, k);
      var m :| 0 <= m < |t| && t[m] == (k, name);
      if m > i {
        assert LexOrder.Less(t[i].0, t[m].0);
      }
    }
  }
}

=== FILE: pkt_utils.dfy ===
/**
 The byte-level file utilities: range reads with clamping, appends, random
 file identifiers drawn from an alphanumeric alphabet, and the
 `<hex identifier>_<number>` packet file name.
 */
module PktUtils {
  import opened Bytes
  import opened Wrappers
  import Disk

  // ---------------------------------------------------------------------------
  // Fetch_Bytes
  // ---------------------------------------------------------------------------

  /** The end of the range actually read: -1, or anything past the end, means the file size. */
  function ClampEnd(size: nat, byteEnd: int): (e: int)
    ensures e <= size
    ensures byteEnd == -1 || byteEnd > size ==> e == size
    ensures byteEnd != -1 && byteEnd <= size ==> e == byteEnd
  {
    if byteEnd == -1 || byteEnd > size then size else byteEnd
  }

  /**
   `Fetch_Bytes`: the bytes in [byteStart, end) where end is the clamped
   end; empty when the file cannot be opened, when the range is empty after
   clamping, or when the seek to a negative start fails.
   */
  function FetchBytes(file: Option<bytes>, byteStart: int := 0, byteEnd: int := -1): (r: bytes)
    ensures file.None? ==> r == []
    ensures file.Some? ==> var e := ClampEnd(|file.value|, byteEnd);
      && (e <= byteStart || byteStart < 0 ==> r == [])
      && (0 <= byteStart < e ==> r == file.value[byteStart..e] && |r| == e - byteStart)
  {
    if file.None? then []
    else
      var data := file.value;
      var e := ClampEnd(|data|, byteEnd);
      if e <= byteStart then []
      else if byteStart < 0 then []   // seekg to a negative position fails
      else data[byteStart..e]
  }

  /** With the default range the whole file is returned. */
  lemma FetchWhole(data: bytes)
    ensures FetchBytes(Some(data)) == data
  {
  }

  /** Reading two adjacent ranges gives the same bytes as reading their union. */
  lemma FetchAdjacent(data: bytes, a: nat, b: nat, c: nat)
    requires a <= b <= c <= |data|
    ensures FetchBytes(Some(data), a, b) + FetchBytes(Some(data), b, c) == FetchBytes(Some(data), a, c)
  {
    if a < b < c {
      assert data[a..b] + data[b..c] == data[a..c];
    }
  }

  // ---------------------------------------------------------------------------
  // Append_Bytes
  // ---------------------------------------------------------------------------

  /** The contents of `path`, empty when there is no such file. */
  function Contents(fs: Disk.FileSystem, path: string): bytes
  {
    if path in fs then fs[path] else []
  }

  /**
   `Append_Bytes`: opening in append mode creates a missing file; the file
   then holds its old contents followed by `data`. If the open fails nothing
   changes. No other file is touched.
   */
  function AppendBytes(fs: Disk.FileSystem, path: string, data: bytes, canOpen: bool): (r: Disk.FileSystem)
    ensures canOpen ==> path in r && |r[path]| == |Contents(fs, path)| + |data|
    ensures canOpen ==> r[path][..|Contents(fs, path)|] == Contents(fs, path)
    ensures canOpen ==> r[path][|Contents(fs, path)|..] == data
    ensures !canOpen ==> r == fs
    ensures forall p :: p in fs && p != path ==> p in r && r[p] == fs[p]
    ensures forall p :: p in r && p != path ==> p in fs
  {
    Disk.Overwrite(fs, path, canOpen, Contents(fs, path) + data)
  }

  /** Fetching from the old end of a file after an append returns exactly what was appended. */
  lemma FetchAfterAppend(fs: Disk.FileSystem, path: string, data: bytes)
    ensures var after := AppendBytes(fs, path, data, true);
      FetchBytes(Some(after[path]), |Contents(fs, path)|) == data
  {
  }

  // ---------------------------------------------------------------------------
  // Genrate_File_ID
  // ---------------------------------------------------------------------------

  /** `n` consecutive byte values starting at `first`. */
  function ByteRange(first: nat, n: nat): (r: bytes)
    requires first + n <= 0x100
    ensures |r| == n
    ensures forall i :: 0 <= i < n ==> r[i] == first + i
  {
    seq(n, i requires 0 <= i < n => first + i)
  }

  /** The alphabet identifiers are drawn from: "0123456789", "A".."Z", "a".."z" in that order. */
  function Charset(): (r: bytes)
    ensures |r| == 62
  {
    ByteRange('0' as nat, 10) + ByteRange('A' as nat, 26) + ByteRange('a' as nat, 26)
  }

  /** ASCII digits, upper-case and lower-case letters. */
  predicate IsAlnum(b: int)
  {
    48 <= b <= 57 || 65 <= b <= 90 || 97 <= b <= 122
  }

  /** The alphabet is exactly the 62 ASCII letters and digits, each once. */
  lemma CharsetIsAlnum()
    ensures forall i :: 0 <= i < 62 ==> IsAlnum(Charset()[i])
    ensures forall b :: IsAlnum(b) ==> b in Charset()
  {
    var c := Charset();
    assert forall i :: 0 <= i < 10 ==> c[i] == 48 + i;
    assert forall i :: 10 <= i < 36 ==> c[i] == ByteRange(65, 26)[i - 10];
    assert forall i :: 36 <= i < 62 ==> c[i] == ByteRange(97, 26)[i - 36];
    forall b | IsAlnum(b)
      ensures b in c
    {
      if b <= 57 {
        assert c[b - 48] == b;
      } else if b <= 90 {
        assert c[b - 65 + 10] == b;
      } else {
        assert c[b - 97 + 36] == b;
      }
    }
  }

  /** Length of an identifier. */
  const IdLength: nat := 5

  /**
   `Genrate_File_ID` with the five `rand()` results passed in: each byte is
   the alphabet entry at draw mod 62, so every byte is a letter or digit and
   never NUL.
   */
  function GenerateFileId(draws: seq<nat>): (id: bytes)
    requires |draws| == IdLength
    ensures |id| == IdLength
    ensures forall i :: 0 <= i < IdLength ==> IsAlnum(id[i])
    ensures 0 !in id
  {
    CharsetIsAlnum();
    seq(IdLength, i requires 0 <= i < IdLength => Charset()[draws[i] % 62])
  }

  /** Every five-character alphanumeric identifier is produced by some draws. */
  lemma EveryIdReachable(id: bytes)
    requires |id| == IdLength && forall i :: 0 <= i < IdLength ==> IsAlnum(id[i])
    ensures exists draws: seq<nat> :: |draws| == IdLength && GenerateFileId(draws) == id
  {
    CharsetIsAlnum();
    var c := Charset();
    var draws: seq<nat> := seq(IdLength, i requires 0 <= i < IdLength => IndexIn(c, id[i]));
    var g := GenerateFileId(draws);
    forall i | 0 <= i < IdLength
      ensures g[i] == id[i]
    {
      assert draws[i] < 62 && draws[i] % 62 == draws[i];
    }
    assert g == id;
  }

  /** Some position of `b` in `s`. */
  function IndexIn(s: bytes, b: uint8): (i: nat)
    requires b in s
    ensures i < |s| && s[i] == b
  {
    if s[0] == b then 0 else 1 + IndexIn(s[1..], b)
  }

  // ---------------------------------------------------------------------------
  // CREATE_EMPTY_HEADER_FILE
  // ---------------------------------------------------------------------------

  type int32 = x: int | -0x8000_0000 <= x < 0x8000_0000

  /** The upper-case hexadecimal digit for `d`. */
  function HexDigit(d: nat): (c: char)
    requires d < 16
  {
    if d < 10 then ('0' as int + d) as char else ('A' as int + d - 10) as char
  }

  predicate IsHexDigit(c: char)
  {
    '0' <= c <= '9' || 'A' <= c <= 'F'
  }

  /** `%02X`: two upper-case hexadecimal digits. */
  function Hex2(b: uint8): (s: string)
    ensures |s| == 2 && IsHexDigit(s[0]) && IsHexDigit(s[1])
  {
    [HexDigit(b / 16), HexDigit(b % 16)]
  }

  /** The hexadecimal spelling of an identifier, two digits per byte. */
  function HexOf(id: bytes): (s: string)
    ensures |s| == 2 * |id|
    ensures forall i :: 0 <= i < |s| ==> IsHexDigit(s[i])
  {
    if |id| == 0 then "" else Hex2(id[0]) + HexOf(id[1..])
  }

  /** The value of one upper-case hexadecimal digit. */
  function HexValue(c: char): (v: nat)
    ensures v < 16
  {
    if '0' <= c <= '9' then (c as int) - ('0' as int)
    else if 'A' <= c <= 'F' then (c as int) - ('A' as int) + 10
    else 0
  }

  lemma HexDigitValue(d: nat)
    requires d < 16
    ensures HexValue(HexDigit(d)) == d
  {
  }

  /** Reading a string of hexadecimal digit pairs back as bytes. */
  function HexDecode(s: string): (r: bytes)
    requires |s| % 2 == 0
    ensures |r| == |s| / 2
  {
    if |s| == 0 then [] else [HexValue(s[0]) * 16 + HexValue(s[1])] + HexDecode(s[2..])
  }

  /** The hexadecimal spelling reads back to the identifier. */
  lemma {:induction false} HexRoundTrip(id: bytes)
    ensures HexDecode(HexOf(id)) == id
  {
    if |id| > 0 {
      var b := id[0];
      HexDigitValue(b / 16);
      HexDigitValue(b % 16);
      var s := HexOf(id);
      assert s[0] == HexDigit(b / 16) && s[1] == HexDigit(b % 16);
      assert s[2..] == HexOf(id[1..]);
      HexRoundTrip(id[1..]);
    }
  }

  /** The decimal digits of a natural number, most significant first, no leading zeros. */
  function DecimalDigits(n: nat): (s: string)
    ensures |s| >= 1
    ensures forall i :: 0 <= i < |s| ==> '0' <= s[i] <= '9'
    ensures |s| > 1 ==> s[0] != '0'
  {
    if n < 10 then [('0' as int + n) as char]
    else DecimalDigits(n / 10) + [('0' as int + n % 10) as char]
  }

  /** `std::to_string` of an `int`: optional minus sign, then the digits of the magnitude. */
  function ToDecimal(n: int32): (s: string)
    ensures n < 0 <==> |s| > 0 && s[0] == '-'
    ensures var d := if n < 0 then s[1..] else s;
      && |d| >= 1
      && (forall i :: 0 <= i < |d| ==> '0' <= d[i] <= '9')
      && (|d| > 1 ==> d[0] != '0')
  {
    if n < 0 then "-" + DecimalDigits(-(n as int)) else DecimalDigits(n)
  }

  /** Reading a string of decimal digits as a number. */
  function ParseDigits(s: string): nat
  {
    if |s| == 0 then 0
    else 10 * ParseDigits(s[..|s| - 1]) + (if '0' <= s[|s| - 1] <= '9' then (s[|s| - 1] as int) - ('0' as int) else 0)
  }

  /** Reading back an optional minus sign and digits. */
  function ParseDecimal(s: string): int
  {
    if |s| > 0 && s[0] == '-' then -(ParseDigits(s[1..]) as int) else ParseDigits(s)
  }

  lemma {:induction false} DigitsRoundTrip(n: nat)
    ensures ParseDigits(DecimalDigits(n)) == n
  {
    if n >= 10 {
      var s := DecimalDigits(n);
      assert s[..|s| - 1] == DecimalDigits(n / 10);
      DigitsRoundTrip(n / 10);
    }
  }

  lemma DecimalRoundTrip(n: int32)
    ensures ParseDecimal(ToDecimal(n)) == n
  {
    if n < 0 {
      assert ToDecimal(n)[1..] == DecimalDigits(-(n as int));
      DigitsRoundTrip(-(n as int));
    } else {
      DigitsRoundTrip(n);
    }
  }

  /**
   The name `CREATE_EMPTY_HEADER_FILE` builds: ten upper-case hexadecimal
   digits spelling the identifier, an underscore and the number in decimal.
   The hexadecimal part reads back to the identifier and the decimal part to
   the number.
   */
  function HeaderFileName(id: bytes, number: int32): (name: string)
    requires |id| == IdLength
    ensures |name| > 2 * IdLength
    ensures forall i :: 0 <= i < 2 * IdLength ==> IsHexDigit(name[i])
    ensures HexDecode(name[..2 * IdLength]) == id
    ensures name[2 * IdLength] == '_'
    ensures ParseDecimal(name[2 * IdLength + 1..]) == number
    ensures name[2 * IdLength + 1..] == ToDecimal(number)
  {
    HexPartReadsBack(HexOf(id), id, ToDecimal(number));
    DecimalPartReadsBack(HexOf(id), ToDecimal(number), number);
    HexOf(id) + ['_'] + ToDecimal(number)
  }

  lemma HexPartReadsBack(hex: string, id: bytes, rest: string)
    requires hex == HexOf(id) && |id| == IdLength
    ensures |hex + ['_'] + rest| > 2 * IdLength
    ensures forall i :: 0 <= i < 2 * IdLength ==> IsHexDigit((hex + ['_'] + rest)[i])
    ensures HexDecode((hex + ['_'] + rest)[..2 * IdLength]) == id
    ensures (hex + ['_'] + rest)[2 * IdLength] == '_'
  {
    JoinParts(hex, '_', rest);
    HexRoundTrip(id);
  }

  lemma DecimalPartReadsBack(hex: string, dec: string, number: int32)
    requires |hex| == 2 * IdLength && dec == ToDecimal(number)
    ensures (hex + ['_'] + dec)[2 * IdLength + 1..] == dec
    ensures ParseDecimal((hex + ['_'] + dec)[2 * IdLength + 1..]) == number
  {
    JoinParts(hex, '_', dec);
    DecimalRoundTrip(number);
  }

  /** The parts of `a`, a separator and `b` are found again at their offsets. */
  lemma JoinParts(a: string, c: char, b: string)
    ensures (a + [c] + b)[..|a|] == a
    ensures forall i :: 0 <= i < |a| ==> (a + [c] + b)[i] == a[i]
    ensures (a + [c] + b)[|a|] == c
    ensures (a + [c] + b)[|a| + 1..] == b
  {
  }

  /**
   `CREATE_EMPTY_HEADER_FILE`: the file named by `HeaderFileName` is created,
   or truncated when it exists, so it is then empty, and the name is
   returned. When it cannot be created nothing changes and the result is the
   empty string. No other file is touched.
   */
  function CreateEmptyHeaderFile(fs: Disk.FileSystem, id: bytes, number: int32, canCreate: bool)
    : (r: (string, Disk.FileSystem))
    requires |id| == IdLength
    ensures !canCreate ==> r.0 == "" && r.1 == fs
    ensures canCreate ==> r.0 == HeaderFileName(id, number) && r.0 in r.1 && r.1[r.0] == []
    ensures forall p :: p in fs && p != r.0 ==> p in r.1 && r.1[p] == fs[p]
    ensures forall p :: p in r.1 && p != r.0 ==> p in fs
  {
    if !canCreate then ("", fs)
    else
      var name := HeaderFileName(id, number);
      (name, Disk.Overwrite(fs, name, true, []))
  }
}

=== FILE: wrappers.dfy ===
/** Optional values: the "nothing was produced" outcome of a read that fails. */
module Wrappers {

  datatype Option<+T> = None | Some(value: T)

}
